=== FILE: README.md ===
# Shamir secret reconstruction, modelled in Dafny

`index.js` reconstructs the secret of a Shamir secret-sharing scheme. It reads
a JSON object that holds a `keys` entry (`n`, `k`) and any number of shares
`"x": { "base": ..., "value": ... }`. It decodes each share's value from its
base with `BigInt(parseInt(value, base))`, sorts the points by x and
evaluates the Lagrange interpolation polynomial of the first `k` points at
x = 0 in BigInt arithmetic.

This project models that computation after the file has been read and
parsed. It covers:

- `convertFromBase`: module `Radix`.
- The point-collection loop, the threshold check and the sort: module `ShareSet`.
  It uses a generic "map, stopping at the first failure" from module `Traverse`.
- `lagrangeInterpolation`: module `Lagrange`, with module `Symmetry` for its
  order independence.
- The driver `solveShamirSecretSharing`: module `Shamir`.

Further modules support the proofs:

- `Arith` models the BigInt division `/`, which truncates toward zero and throws
  a RangeError on a zero divisor.
- `Points` holds the point type and the products Lagrange's formula multiplies.
- `Polynomial`, `RealAlgebra` and `Interpolation` state, over Dafny's `real`,
  the interpolation theorem: for points with distinct x on a polynomial of
  degree below their number, the Lagrange form gives back the polynomial.
- `Exactness` connects that theorem to the integer code, and holds a corrected
  computation.

How JavaScript's behaviour is represented:

- The parsed input is a sequence of `Entry` values in property-enumeration
  order.
  - `KeysEntry(n, k)` is the `keys` property, with `n` and `k` integers. A
    missing `n` or `k` is written 0, since both are falsy at index.js:53.
  - `Root(Share(x, base, value))` is any other property. `x` is its key as
    `parseInt` reads it.
- Every `return null` of the driver, and every exception its `catch` turns
  into `null`, is a `Failure` that names the reason: `MissingKeys`,
  `NotANumber`, `NotEnoughPoints`, `DivisionByZero`.
- `Imprecise` is a failure of the model's own, not one of the code's. It
  marks a magnitude above 2^53 − 1, where the code goes on with a double
  that the model does not compute (see "Left out").
- `parseInt` follows section 19.2.5 of ECMA-262:
  - an optional sign;
  - the radix argument taken through ToInt32, where 0 means 10, or 16 after
    a `0x` prefix;
  - the longest run of characters that are digits in that radix;
  - an empty run gives NaN, and `BigInt(NaN)` throws.
- `points.slice(0, k)` follows `Array.prototype.slice`, negative `k` included.
- `points.sort((a, b) => a.x - b.x)` is the stable sort that the language
  requires. It is written as an insertion sort and proved to be the only
  stable, sorted arrangement.

What the code does on the points it interpolates:

- For the usage example's two shares, "4" in base 10 and "111" in base 2
  (index.js:125-131), taken with k = 2, it adds both terms:
  4·(−2)/(1−2) + 7·(−1)/(2−1) = 8 − 7 = 1 (`Lagrange.TwoPointExample`,
  `Shamir.SolveExample`).
- It skips shares whose base or value is falsy (index.js:76-79).
- It throws, and returns `null`, only on a zero divisor (index.js:33).
- It truncates every inexact division (see "Findings").

## Model

| member | source | states |
|---|---|---|
| `Radix.Decode` | index.js:4-6 | A decoded value lies within ±(2^53 − 1); the only failures are NaN (BigInt's RangeError) and a magnitude above 2^53 − 1 |
| `Radix.DigitPrefix` | index.js:5 | parseInt reads a prefix of its input made only of digits of the radix, and stops at the first non-digit |
| `Radix.ToInt32` | index.js:5 | The radix argument is reduced into the signed 32-bit range and stays congruent to the argument modulo 2^32 |
| `Radix.RadixAndBody` | index.js:5 | Whenever a radix is chosen, it lies between 2 and 36 |
| `Radix.HornerIsPositional` | index.js:5 | Reading digits left to right (multiply by the radix, add the digit) gives the positional value Σ d_i · radix^(len−1−i) |
| `Radix.DecodeDigits` | index.js:4-6 | A non-empty string of digits in a radix from 2 to 36 decodes to its positional value (when that value is at most 2^53 − 1) |
| `Radix.DecodeDecimal` | index.js:73 | `parseInt(base)` without a radix argument reads a string of decimal digits as its decimal value |
| `Radix.EncodeValue` | index.js:4-6 | The digits written for n in a radix have positional value n, the reference that the decode round trip inverts |
| `Radix.DecodeEncode` | index.js:4-6 | Round trip: writing n in a radix and decoding it in the same radix gives n back |
| `Radix.BaseInvariance` | index.js:4-6 | The same number written in two different radixes decodes to the same integer |
| `Radix.DecodeIgnoresTail` | index.js:5 | Characters after the first non-digit do not change the decoded value |
| `Radix.DecodeNegative` | index.js:5 | A leading minus sign negates the decoded value |
| `Radix.DecodeBadRadix` | index.js:5 | A radix outside 2..36 (after ToInt32, and not 0) gives NaN, whatever the value |
| `Radix.DecodeExamples` | index.js:125-131 | The usage example's "111" in base 2 is 7; "100" in base 2 and "4" in base 10 decode alike |
| `Arith.TruncDiv` | index.js:33 | BigInt division fails exactly when the divisor is 0; otherwise the remainder is smaller than the divisor in magnitude and never has the opposite sign of the dividend |
| `Arith.TruncQuotientUnique` | index.js:33 | At most one integer is the truncated quotient |
| `Arith.TruncDivExact` | index.js:33 | When the divisor divides the dividend, the division gives the exact quotient |
| `Points.SpanZero` | index.js:24-30 | A product of factors (t − xj) is zero exactly when some xj equals t |
| `Points.SpanPermutation` | index.js:24-30 | The product does not depend on the order in which the points are multiplied in |
| `Points.OthersMultiset` | index.js:24-25 | The points `j != i` are the whole point multiset minus point i |
| `Points.DenominatorNonZero` | index.js:28 | With pairwise distinct x, no Lagrange denominator is zero |
| `Points.DenominatorZero` | index.js:28 | A zero Lagrange denominator means two points share an x |
| `Points.Span` | index.js:24-30 | Definition of the inner loop's product; see `Points.SpanZero`, `Points.SpanPermutation`, `Lagrange.BasisAtZero` |
| `Lagrange.Term` | index.js:33 | Definition of one term `yi * numerator / denominator`; see `Exactness.TermValue`, `Symmetry.TermIsTermIn` |
| `Lagrange.LagrangeInterpolation` | index.js:9-37 | Definition of `lagrangeInterpolation`; see `Lagrange.Interpolate`, `Lagrange.FailsIffDuplicate`, `Symmetry.PermutationInvariant` |
| `Lagrange.AddOpt` | index.js:33 | Definition of `secret +=` on BigInts, a throw on either side propagating; see `Lagrange.SumTermsAbsorbs` |
| `Lagrange.SumTerms` | index.js:16-34 | Definition of the outer loop's running sum after its first n iterations; see `Lagrange.SumTermsNone`, `Exactness.SumTermsValue` |
| `Lagrange.LagrangeAtZero` | index.js:10-36 | Definition of the sum over all selected points, the value returned; see `Lagrange.Interpolate`, `Lagrange.FailsIffDuplicate`, `Symmetry.PermutationInvariant`, `Exactness.ExactRecoversSecret` |
| `Lagrange.Slice` | index.js:13 | The selected points are a prefix of the input: exactly the first k when 0 ≤ k ≤ length, all of them when k ≥ length |
| `Lagrange.BasisAtZero` | index.js:21-30 | The inner loop's numerator is the product of (0 − xj) and its denominator the product of (xi − xj), over every point j other than i |
| `Lagrange.SpanStep` | index.js:24-30 | One inner-loop step multiplies in point j's factor, unless j is i |
| `Lagrange.Interpolate` | index.js:9-37 | The loops compute the term-by-term sum of truncated quotients, and fail (RangeError) exactly when two selected points share an x |
| `Lagrange.SumTermsAbsorbs` | index.js:33 | Once one term's division throws, the whole sum throws |
| `Lagrange.SumTermsNone` | index.js:16-34 | The running sum fails exactly when one of its terms does |
| `Lagrange.FailsIffDuplicate` | index.js:24-33 | The interpolation throws exactly when two of the points share an x |
| `Lagrange.SinglePoint` | index.js:13-36 | When one point is selected, the result is that point's y |
| `Lagrange.ThresholdOne` | index.js:13 | With k = 1 the result is the first point's y |
| `Lagrange.FirstKOnly` | index.js:12-13 | Only the first k points matter: inputs that agree on them give the same result |
| `Lagrange.TwoPointExample` | index.js:16-34 | (1, 4) and (2, 7) give 8 − 7 = 1 |
| `Symmetry.TermIsTermIn` | index.js:24-33 | A term depends on the other points only through their multiset |
| `Symmetry.SumInPermutation` | index.js:16-34 | Reordering the terms being added leaves the sum, and any failure, unchanged |
| `Symmetry.PermutationInvariant` | index.js:16-34 | Any permutation of the selected points gives the same result, failure included |
| `Interpolation.PartitionOfUnity` | index.js:20-30 | Over pairwise distinct x, the Lagrange basis values (products of (t − xj)/(xi − xj)) sum to one at every integer t |
| `Interpolation.Reproduce` | index.js:8-37 | Over the rationals, the Lagrange form of a polynomial of degree below the number of distinct nodes equals the polynomial at every integer point |
| `Exactness.SpanIsSkip` | index.js:21-30 | The integer products of the inner loop are the factors of the rational basis value |
| `Exactness.TermValue` | index.js:33 | An exact per-term division gives the rational term yi · Li(0) |
| `Exactness.SumTermsValue` | index.js:16-34 | When every division is exact, the integer sum is the rational Lagrange sum |
| `Exactness.ExactRecoversSecret` | index.js:9-37 | Distinct x, points on a polynomial of degree below their number, and every division exact: the result is the constant term |
| `Exactness.TruncationLosesSecret` | index.js:33 | The shares (1,1), (2,1), (4,1) of the constant polynomial 1 give 0: truncating each term loses the secret |
| `Exactness.FractionValue` | index.js:33 | The corrected computation's running fraction equals the rational partial sum, over a non-zero denominator |
| `Exactness.ExactSecret` | index.js:33 | Definition of the corrected computation, one fraction and one division; see `Exactness.ExactSecretCorrect` |
| `Exactness.ExactLagrange` | index.js:9-37 | Definition of `lagrangeInterpolation` with the one-division computation, as `Shamir.SolveExact` calls it; see `Shamir.SolveExactSecret` |
| `Exactness.ExactSecretCorrect` | index.js:33 | The corrected computation (one fraction, one division) returns the constant term for any distinct-x points on a polynomial of degree below their number |
| `Exactness.ExactSecretExample` | index.js:33 | On (1,1), (2,1), (4,1) the corrected computation gives the secret 1 |
| `Traverse.MapResult` | index.js:69-85 | Definition of a loop whose body can throw, run over a sequence in order; see `Traverse.MapResultSuccess`, `Traverse.MapResultFailure` |
| `Traverse.MapResultPointwise` | index.js:69-85 | The loop sees each element only through its step's result: inputs whose elements give the same results end alike |
| `Traverse.MapResultSuccess` | index.js:69-85 | A loop that did not throw has one result per element, each the element's own result |
| `Traverse.MapResultFailure` | index.js:69-85 | A loop that threw reports the failure of the first element whose step fails, every earlier one having succeeded |
| `ShareSet.Usable` | index.js:76 | Definition of the test that skips a share with a falsy base or value; see `ShareSet.KeptSharesMember` |
| `ShareSet.BaseOf` | index.js:73 | Definition of `parseInt(data[key].base)`, no radix argument; see `Radix.DecodeDecimal` |
| `ShareSet.Kept` | index.js:70-79 | Definition of an entry that gets past both `continue`s; see `ShareSet.KeptSharesMember` |
| `ShareSet.KeptShares` | index.js:69-80 | Definition of the shares the loop goes on to decode, in order; see `ShareSet.KeptSharesMember`, `ShareSet.KeptSharesAppend` |
| `ShareSet.Collect` | index.js:69-85 | Definition of the collection loop's outcome; see `ShareSet.CollectPoints`, `ShareSet.CollectSuccess`, `ShareSet.CollectFailure` |
| `ShareSet.Prepare` | index.js:67-94 | Definition of collection, threshold check and sort; see `ShareSet.PreparedPoints`, `ShareSet.NotEnough` |
| `ShareSet.CollectSameDecoding` | index.js:69-85 | Replacing one share by another that is kept alike and decodes alike leaves the collection unchanged |
| `ShareSet.DecodeShare` | index.js:72-83 | A decoded share keeps its x; decoding fails only with NaN or an imprecise magnitude |
| `ShareSet.KeptSharesMember` | index.js:69-80 | A share is kept exactly when it is a non-`keys` property whose value is non-empty and whose base is neither NaN nor 0 |
| `ShareSet.KeptSharesAppend` | index.js:69-80 | Filtering processes the properties one at a time, in order: filtering a concatenation concatenates the filtered parts |
| `ShareSet.CollectSnoc` | index.js:69-85 | One more property: it is skipped, appended as a point, or ends the loop with its decoding failure |
| `ShareSet.CollectSuccess` | index.js:69-85 | A successful collection has one point per kept share, in order, each that share decoded |
| `ShareSet.CollectFailure` | index.js:81-83 | A failed collection reports the first kept share that does not decode, and the failure is NaN or an imprecise magnitude |
| `ShareSet.CollectPoints` | index.js:68-85 | The loop statement by statement, including `continue` and the throw, computes the collection |
| `ShareSet.CollectFailureSticks` | index.js:81 | After a throw, the remaining properties do not change the outcome |
| `ShareSet.SortByX` | index.js:94 | The sorted points are ordered by x and are a permutation of the input |
| `ShareSet.SortByXStable` | index.js:94 | The sort is stable: the points with any one x keep their input order |
| `ShareSet.SortedStableUnique` | index.js:94 | Two sequences that are both sorted by x and keep each x's points in the same order are equal |
| `ShareSet.SortByXUnique` | index.js:94 | The sort's output is the only sorted, stable arrangement of its input |
| `ShareSet.PreparedPoints` | index.js:68-94 | The prepared points are exactly the collected points (at least k of them), sorted by x, with equal x in input order |
| `ShareSet.NotEnough` | index.js:88-91 | Once collection succeeds, preparation fails exactly when there are fewer than k points, and reports both counts |
| `Shamir.KeysOf` | index.js:53 | The `keys` entry found is an entry of the input; none is found exactly when there is no `keys` entry |
| `Shamir.HasKeys` | index.js:53 | Definition of the test that `keys`, `keys.n` and `keys.k` are all present and truthy; see `Shamir.MissingKeysIff` |
| `Shamir.MissingKeysIff` | index.js:53-56 | The driver reports missing keys exactly when `keys`, `keys.n` or `keys.k` is missing or falsy |
| `Shamir.SolveNotEnough` | index.js:88-91 | With keys present and shares decoded, the driver stops before interpolating exactly when fewer than k points were collected |
| `Shamir.SolveDuplicate` | index.js:98-106 | With enough points, the driver returns null exactly when two of the first k sorted points share an x, and succeeds otherwise |
| `Shamir.SolveSecret` | index.js:98-102 | For shares on a polynomial of degree below k with distinct x and exact divisions, the driver returns the constant term |
| `Shamir.SolveExactSecret` | index.js:98-102 | The driver with the corrected interpolation returns the constant term with no exactness condition |
| `Shamir.SolveThresholdOne` | index.js:88-102 | With k = 1, the driver returns the y of the first point of least x |
| `Shamir.ExampleShares` | index.js:72-83 | The usage example's shares "4" (base 10) and "111" (base 2), from index.js:125-131, and an added share "12" (base 10) are kept and decode to 4, 7 and 12 |
| `Shamir.SolveExample` | index.js:40-108 | The input made of those two shares, the added share (3, "10", "12"), n = 3 and k = 2 gives the secret 1 |
| `Shamir.KeysOfSplice` | index.js:53 | A share entry anywhere in the input does not change which `keys` entry is found |
| `Shamir.SolveSameDecoding` | index.js:40-108 | Replacing one share by another that is kept alike and decodes to the same point leaves the driver's result unchanged, for the code's interpolation and the corrected one |
| `Shamir.SolveSameInputs` | index.js:53-99 | The driver's result depends on the input only through the `keys` entry found and the points collected |
| `Shamir.SolveBaseInvariance` | index.js:73-83 | A share writing n in one radix can be replaced by one writing n in another radix without changing the driver's result; both are kept |
| `Shamir.Solve` | index.js:40-108 | Definition of the driver; see `Shamir.MissingKeysIff`, `Shamir.SolveNotEnough`, `Shamir.SolveDuplicate`, `Shamir.SolveSecret`, `Shamir.SolveSameDecoding` |
| `Shamir.SolveExact` | index.js:98-99 | Definition of the driver with the corrected interpolation; see `Shamir.SolveExactSecret` |

## Left out

- Reading the file, checking that it exists, `JSON.parse`, console output and
  `main`'s argument handling are I/O. The model starts from the parsed object.
- The order in which JavaScript enumerates object keys is not modelled. The
  entries come in any order the caller gives, which covers the order the
  language produces.
- `parseInt(key)` on the property name is not modelled: each share carries its
  x as an integer. Non-numeric keys, which give a NaN x and an inconsistent
  sort comparator, are outside the model.
- `base` and `value` are strings and `n` and `k` integers. Other JSON types
  are not modelled: a numeric `value` (0 is falsy, "0" is not), a string `k`
  (`"0"` is truthy), a fractional `k`. `keys.n` is used only for its
  truthiness, as in the code.
- `parseInt` skipping leading whitespace is not modelled.
- Radix.Decode: a magnitude above 2^53 − 1 is reported as `Failure(Imprecise)`.
  In the code, magnitudes from 2^53 to just under 2^1024 give a double,
  rounded when not exact, which `BigInt` accepts. Larger ones give Infinity,
  on which `BigInt` throws and the driver returns `null`. The model reports
  both as `Imprecise`, because floating point is not modelled.
- ShareSet.DecodeShare: a base whose magnitude is above 2^53 − 1 is truthy, and
  the share is kept. Decoding it then fails with `Imprecise`, instead of going
  through ToInt32 of the rounded double.
- Lagrange.Slice: the contract states the prefix property and the cases with
  k ≥ 0. A negative end is handled in the definition only.
- Lagrange.FirstKOnly: stated for 0 ≤ k.
- Shamir.SolveSecret: requires every per-term division to be exact. The code
  truncates each term, so without that condition the secret is not recovered
  (see Findings).

## Findings

| source | as written | input that shows it | evidently intended | confidence | as-written member | corrected member |
|---|---|---|---|---|---|---|
| index.js:33 | `secret += yi * numerator / denominator` divides each term on its own, truncating toward zero | points (1,1), (2,1), (4,1) with k = 3, the shares of the constant polynomial 1: the terms 8/3, 4/(−2) and 2/6 truncate to 2, −2 and 0, so the result is 0 | the constant term 1: sum the terms as one fraction and divide once | not executed | `Exactness.TruncationLosesSecret` | `Exactness.ExactSecretCorrect` |

`Exactness.ExactSecret` keeps a running fraction (numerator, denominator)
and divides once at the end. `Exactness.ExactSecretCorrect` proves that it
returns the constant term for every set of points with distinct x on a
polynomial of degree below their number. `Shamir.SolveExact` is the driver
that uses it, and `Shamir.SolveExactSecret` states the same property for the
whole driver. The per-term computation is exact only when every division
happens to leave no remainder (`Exactness.ExactRecoversSecret`).

=== FILE: arith.dfy ===
/** Integer division as JavaScript's BigInt `/` performs it: the quotient is
    truncated toward zero, and a zero divisor throws a RangeError. Dafny's own
    `/` on `int` is Euclidean, so it is not used for signed operands. */
module Arith {
  import opened Wrappers

  function Abs(a: int): (r: nat)
    ensures r == a || r == -a
  {
    if a < 0 then -a else a
  }

  /** `q` is the quotient of `a` by `b` rounded toward zero: the remainder
      `a - q * b` is smaller than the divisor in magnitude and never has the
      opposite sign of the dividend. */
  predicate IsTruncQuotient(a: int, b: int, q: int) {
    var rem := a - q * b;
    Abs(rem) < Abs(b) && (rem == 0 || (rem > 0 <==> a > 0))
  }

  /** BigInt `a / b`; `None` is the RangeError thrown for `b == 0`. */
  function TruncDiv(a: int, b: int): (q: Option<int>)
    ensures q.None? <==> b == 0
    ensures q.Some? ==> IsTruncQuotient(a, b, q.value)
  {
    if b == 0 then None
    else
      var m := Abs(a) / Abs(b);
      TruncDivCorrect(a, b);
      if (a < 0) != (b < 0) then Some(-m) else Some(m)
  }

  lemma TruncDivCorrect(a: int, b: int)
    requires b != 0
    ensures var m := Abs(a) / Abs(b);
      IsTruncQuotient(a, b, if (a < 0) != (b < 0) then -m else m)
  {
    var n := Abs(a);
    var d := Abs(b);
    var m, rm := DivMod(n, d);
    SignedRemainder(a, b, m, rm);
  }

  lemma DivModFacts(n: nat, d: nat)
    requires d > 0
    ensures n == (n / d) * d + n % d && 0 <= n % d < d
  {
  }

  lemma QuotientSmaller(n: nat, d: nat)
    requires d >= 2 && n >= 1
    ensures n / d < n
  {
  }

  lemma DivMod(n: nat, d: nat) returns (m: nat, rm: nat)
    requires d > 0
    ensures m == n / d && n == m * d + rm && rm < d
  {
    m, rm := n / d, n % d;
  }

  /** From the division of the magnitudes to the signed, truncated one. */
  lemma SignedRemainder(a: int, b: int, m: int, rm: int)
    requires b != 0 && m >= 0
    requires Abs(a) == m * Abs(b) + rm && 0 <= rm < Abs(b)
    ensures IsTruncQuotient(a, b, if (a < 0) != (b < 0) then -m else m)
  {
    var q := if (a < 0) != (b < 0) then -m else m;
    var mb := m * Abs(b);
    if b > 0 {
      assert q * b == (if a < 0 then -mb else mb);
    } else {
      assert m * b == -mb;
      assert q * b == (if a < 0 then -mb else mb);
    }
    assert a - q * b == (if a < 0 then -rm else rm);
  }

  /** At most one integer is the truncated quotient. */
  lemma TruncQuotientUnique(a: int, b: int, q1: int, q2: int)
    requires b != 0
    requires IsTruncQuotient(a, b, q1) && IsTruncQuotient(a, b, q2)
    ensures q1 == q2
  {
    var r1 := a - q1 * b;
    var r2 := a - q2 * b;
    // Both remainders lie on the dividend's side of zero, strictly inside |b|.
    assert Abs(r1 - r2) < Abs(b);
    assert r1 - r2 == (q2 - q1) * b;
    if q1 != q2 {
      MulAbs(q2 - q1, b);
      assert false;
    }
  }

  lemma MulAbs(a: int, b: int)
    requires Abs(a) >= 1
    ensures Abs(a * b) >= Abs(b)
  {
    if a > 0 && b >= 0 {
      assert a * b >= b;
    } else if a > 0 {
      assert a * b <= b;
    } else if b >= 0 {
      assert a * b <= -b;
    } else {
      assert a * b >= -b;
    }
  }

  /** When the divisor divides the dividend, BigInt division is exact. */
  lemma {:induction false} TruncDivExact(a: int, b: int, m: int)
    requires b != 0 && a == m * b
    ensures TruncDiv(a, b) == Some(m)
  {
    var q := TruncDiv(a, b).value;
    assert IsTruncQuotient(a, b, m);
    TruncQuotientUnique(a, b, q, m);
  }
}

=== FILE: errors.dfy ===
/** The reasons the reconstruction driver gives up and returns `null`, and
    `Imprecise`, where the model stops short of the code. */
module Errors {

  datatype Failure =
    /** `keys.n` or `keys.k` is missing or zero. */
    | MissingKeys
    /** `parseInt` produced NaN, so `BigInt(NaN)` threw a RangeError. */
    | NotANumber
    /** The digits denote a magnitude above 2^53 - 1. Up to just under
        2^1024 `parseInt` gives a double (rounded when not exact) that
        `BigInt` accepts; above that it gives Infinity, on which `BigInt`
        throws. Neither is modelled: the model stops here in both cases. */
    | Imprecise
    /** Fewer decoded points than the threshold. */
    | NotEnoughPoints(need: int, got: nat)
    /** A BigInt division by zero (two selected points share an x). */
    | DivisionByZero
}

=== FILE: exactness.dfy ===
/** When does `lagrangeInterpolation` return the secret?

    Each term is divided on its own, with truncation toward zero. When every
    such division happens to be exact, the integer sum is the rational
    Lagrange form, which for points on a polynomial of degree below k is the
    polynomial's constant term. When some division is not exact, the
    truncation errors add up and the result can be wrong even though the
    points are a perfectly good share set: `TruncationLosesSecret` shows one.
    `ExactSecret` is the intended computation: it keeps the sum as
    one fraction over the product of the denominators and divides once. */
module Exactness {
  import opened Wrappers
  import opened Arith
  import opened Points
  import opened Polynomial
  import opened RealAlgebra
  import opened Interpolation
  import opened Lagrange

  /** The points are the shares of the polynomial c: every y is c at x. */
  predicate OnPolynomial(s: seq<Point>, c: seq<int>) {
    forall i :: 0 <= i < |s| ==> s[i].y == Eval(c, s[i].x)
  }

  /** Point i's division `yi * numerator / denominator` leaves no remainder. */
  predicate ExactTerm(s: seq<Point>, i: nat)
    requires i < |s|
  {
    var d := Span(s[i].x, Others(s, i));
    d != 0 && (s[i].y * Span(0, Others(s, i))) % d == 0
  }

  predicate ExactTerms(s: seq<Point>) {
    forall i :: 0 <= i < |s| ==> ExactTerm(s, i)
  }

  /** The inner loop's partial products are the products `Skip` of the
      rational development. */
  lemma {:induction false} SpanBeforeIsSkip(t: int, s: seq<Point>, i: nat, j: nat)
    requires i < |s| && j <= |s|
    ensures Span(t, OthersBefore(s, i, j)) as real == Skip(t, s, i, j)
  {
    if j == 0 {
      assert OthersBefore(s, i, j) == [];
    } else {
      SpanBeforeIsSkip(t, s, i, j - 1);
      SpanStep(t, s, i, j - 1);
      if j - 1 != i {
        CastTimes(Span(t, OthersBefore(s, i, j - 1)), t - s[j - 1].x);
      }
    }
  }

  lemma SpanIsSkip(t: int, s: seq<Point>, i: nat)
    requires i < |s|
    ensures Span(t, Others(s, i)) as real == Skip(t, s, i, |s|)
  {
    SpanBeforeIsSkip(t, s, i, |s|);
    OthersBeforeAll(s, i);
  }

  /** An exact term is the rational term yi basis_i(0). */
  lemma TermValue(s: seq<Point>, c: seq<int>, i: nat)
    requires Distinct(s) && i < |s|
    requires s[i].y == Eval(c, s[i].x) && ExactTerm(s, i)
    ensures Term(s, i).Some?
    ensures Term(s, i).value as real == Times(Value(c, s[i].x), Basis(s, |s|, i, 0))
  {
    var o := Others(s, i);
    var y, n, d := s[i].y, Span(0, o), Span(s[i].x, o);
    var q := (y * n) / d;
    assert y * n == q * d;
    TruncDivExact(y * n, d, q);
    CastTimes(q, d);
    CastTimes(y, n);
    SpanIsSkip(0, s, i);
    SpanIsSkip(s[i].x, s, i);
    DivideOut(q as real, d as real, y as real, n as real);
  }

  /** The integer running sum equals the rational one, term by term. */
  lemma {:induction false} SumTermsValue(s: seq<Point>, c: seq<int>, m: nat)
    requires Distinct(s) && OnPolynomial(s, c) && ExactTerms(s) && m <= |s|
    ensures SumTerms(s, m).Some?
    ensures SumTerms(s, m).value as real == TermSum(s, |s|, c, 0, m)
  {
    if m > 0 {
      SumTermsValue(s, c, m - 1);
      TermValue(s, c, m - 1);
    }
  }

  /** With distinct x's, points on a polynomial of degree below their
      number, and every division exact, Lagrange's formula returns the
      constant term. */
  lemma ExactRecoversSecret(s: seq<Point>, c: seq<int>)
    requires DistinctX(s) && |c| <= |s| && OnPolynomial(s, c) && ExactTerms(s)
    ensures LagrangeAtZero(s) == Some(ConstantTerm(c))
  {
    DistinctIsDistinctX(s);
    SumTermsValue(s, c, |s|);
    Reproduce(s, |s|, c, 0);
    EvalAtZero(c);
  }

  /** Three shares of the constant polynomial 1: two of the three divisions
      (8/3 and 2/6) are inexact, and the truncated terms 2, -2 and 0 add up
      to 0, not 1. */
  lemma TruncationLosesSecret()
    ensures var s := [Point(1, 1), Point(2, 1), Point(4, 1)];
      DistinctX(s) && OnPolynomial(s, [1]) && ConstantTerm([1]) == 1
      && LagrangeAtZero(s) == Some(0)
  {
    var s := [Point(1, 1), Point(2, 1), Point(4, 1)];
    assert Others(s, 0) == [Point(2, 1), Point(4, 1)];
    assert Others(s, 1) == [Point(1, 1), Point(4, 1)];
    assert Others(s, 2) == [Point(1, 1), Point(2, 1)];
    assert Span(0, [Point(2, 1), Point(4, 1)]) == 8 by { SpanPair(0, Point(2, 1), Point(4, 1)); }
    assert Span(1, [Point(2, 1), Point(4, 1)]) == 3 by { SpanPair(1, Point(2, 1), Point(4, 1)); }
    assert Span(0, [Point(1, 1), Point(4, 1)]) == 4 by { SpanPair(0, Point(1, 1), Point(4, 1)); }
    assert Span(2, [Point(1, 1), Point(4, 1)]) == -2 by { SpanPair(2, Point(1, 1), Point(4, 1)); }
    assert Span(0, [Point(1, 1), Point(2, 1)]) == 2 by { SpanPair(0, Point(1, 1), Point(2, 1)); }
    assert Span(4, [Point(1, 1), Point(2, 1)]) == 6 by { SpanPair(4, Point(1, 1), Point(2, 1)); }
    assert IsTruncQuotient(8, 3, 2);
    TruncQuotientUnique(8, 3, TruncDiv(8, 3).value, 2);
    TruncDivExact(4, -2, -2);
    assert IsTruncQuotient(2, 6, 0);
    TruncQuotientUnique(2, 6, TruncDiv(2, 6).value, 0);
    assert Term(s, 0) == Some(2);
    assert Term(s, 1) == Some(-2);
    assert Term(s, 2) == Some(0);
  }

  lemma SpanPair(t: int, p: Point, q: Point)
    ensures Span(t, [p, q]) == (t - p.x) * (t - q.x)
  {
    assert [p, q][..1] == [p];
    assert [p][..0] == [];
    assert Span(t, [p]) == t - p.x;
  }

  /** The running fraction (numerator, denominator) after the first m terms,
      each term brought to the common denominator. */
  function Fraction(s: seq<Point>, m: nat): (int, int)
    requires m <= |s|
  {
    if m == 0 then (0, 1)
    else
      var (p, q) := Fraction(s, m - 1);
      var o := Others(s, m - 1);
      var n, d := Span(0, o), Span(s[m - 1].x, o);
      (p * d + s[m - 1].y * n * q, q * d)
  }

  /** The constant term by the one-division computation: one exact
      fraction, one division at the end. `None` is the zero divisor of a
      duplicate x. */
  function ExactSecret(s: seq<Point>): Option<int> {
    var (p, q) := Fraction(s, |s|);
    TruncDiv(p, q)
  }

  /** `lagrangeInterpolation(points, k)` with the division moved out of the
      loop. */
  function ExactLagrange(points: seq<Point>, k: int): Option<int> {
    ExactSecret(Slice(points, k))
  }

  /** The fraction is the rational partial sum, over a non-zero denominator. */
  lemma {:induction false} FractionValue(s: seq<Point>, c: seq<int>, m: nat)
    requires Distinct(s) && OnPolynomial(s, c) && m <= |s|
    ensures Fraction(s, m).1 != 0
    ensures Fraction(s, m).0 as real == Times(Fraction(s, m).1 as real, TermSum(s, |s|, c, 0, m))
  {
    if m > 0 {
      FractionValue(s, c, m - 1);
      var i := m - 1;
      var (p, q) := Fraction(s, i);
      var o := Others(s, i);
      var y, n, d := s[i].y, Span(0, o), Span(s[i].x, o);
      SkipNonZero(s, i, |s|);
      SpanIsSkip(0, s, i);
      SpanIsSkip(s[i].x, s, i);
      var pr, qr, yr, nr, dr := p as real, q as real, y as real, n as real, d as real;
      var sum, term := TermSum(s, |s|, c, 0, i), Times(yr, Times(nr, Recip(dr)));
      CastTimes(p, d);
      CastTimes(y, n);
      CastTimes(y * n, q);
      CastTimes(q, d);
      TimesNonZero(qr, dr);
      TimesPlus(Times(qr, dr), sum, term, sum + term);
      TimesSwap(qr, dr, sum);
      CommonDenominator(qr, dr, yr, nr);
    }
  }

  /** The corrected computation returns the secret for every share set with
      distinct x's on a polynomial of degree below the number of points:
      no exactness condition is needed. */
  lemma ExactSecretCorrect(s: seq<Point>, c: seq<int>)
    requires DistinctX(s) && |c| <= |s| && OnPolynomial(s, c)
    ensures ExactSecret(s) == Some(ConstantTerm(c))
  {
    DistinctIsDistinctX(s);
    FractionValue(s, c, |s|);
    Reproduce(s, |s|, c, 0);
    EvalAtZero(c);
    var (p, q) := Fraction(s, |s|);
    CastTimes(q, ConstantTerm(c));
    TimesComm(q as real, ConstantTerm(c) as real);
    TruncDivExact(p, q, ConstantTerm(c));
  }

  /** On the share set of `TruncationLosesSecret` the corrected computation
      gives the secret 1. */
  lemma ExactSecretExample()
    ensures ExactSecret([Point(1, 1), Point(2, 1), Point(4, 1)]) == Some(1)
  {
    TruncationLosesSecret();
    ExactSecretCorrect([Point(1, 1), Point(2, 1), Point(4, 1)], [1]);
  }
}

=== FILE: interpolation.dfy ===
/** Lagrange interpolation over the rationals (Dafny's `real`).

    Nodes are the x coordinates of a fixed sequence of points; "the first n
    nodes" are s[0..n). The basis polynomial of node i among the first n
    nodes is the product over the other nodes j of (t - xj) / (xi - xj).
    The main theorem: for pairwise distinct nodes and a polynomial of
    degree less than n, the Lagrange form over the first n nodes equals the
    polynomial at every integer point, in particular at zero. The proofs
    add one node at a time. */
module Interpolation {
  import opened Points
  import opened Polynomial
  import opened RealAlgebra

  /** Node i's x coordinate. Written as a function so that the quantifier
      in `Distinct` fires only where a proof names a node this way. */
  function X(s: seq<Point>, i: nat): int
    requires i < |s|
  {
    s[i].x
  }

  /** `DistinctX`, with its quantifier keyed on `X`. */
  predicate Distinct(s: seq<Point>) {
    forall i, j {:trigger X(s, i), X(s, j)} :: 0 <= i < |s| && 0 <= j < |s| && i != j ==> X(s, i) != X(s, j)
  }

  lemma {:induction false} DistinctIsDistinctX(s: seq<Point>)
    ensures Distinct(s) <==> DistinctX(s)
  {
    if Distinct(s) {
      forall i, j | 0 <= i < |s| && 0 <= j < |s| && i != j
        ensures s[i].x != s[j].x
      {
        assert X(s, i) != X(s, j);
      }
    }
    if DistinctX(s) {
      forall i, j | 0 <= i < |s| && 0 <= j < |s| && i != j
        ensures X(s, i) != X(s, j)
      {
      }
    }
  }

  /** The factor t - x as a real. */
  function Gap(t: int, x: int): real {
    (t - x) as real
  }

  lemma GapSplit(t: int, x: int, a: int)
    ensures Gap(t, a) == Gap(t, x) + Gap(x, a)
    ensures Gap(a, x) == -Gap(x, a)
  {
  }

  /** The product of (t - xj) over the first n nodes. */
  function Full(t: int, s: seq<Point>, n: nat): real
    requires n <= |s|
  {
    if n == 0 then 1.0 else Times(Full(t, s, n - 1), Gap(t, s[n - 1].x))
  }

  /** The product of (t - xj) over the first n nodes except node i. */
  function Skip(t: int, s: seq<Point>, i: nat, n: nat): real
    requires n <= |s|
  {
    if n == 0 then 1.0
    else if n - 1 == i then Skip(t, s, i, n - 1)
    else Times(Skip(t, s, i, n - 1), Gap(t, s[n - 1].x))
  }

  lemma {:induction false} SkipBeyond(t: int, s: seq<Point>, i: nat, n: nat)
    requires n <= |s| && n <= i
    ensures Skip(t, s, i, n) == Full(t, s, n)
  {
    if n > 0 {
      SkipBeyond(t, s, i, n - 1);
    }
  }

  /** Any factor can be taken out of the full product. */
  lemma {:induction false} SkipFactor(t: int, s: seq<Point>, i: nat, n: nat)
    requires i < n <= |s|
    ensures Full(t, s, n) == Times(Skip(t, s, i, n), Gap(t, s[i].x))
  {
    if n - 1 == i {
      SkipBeyond(t, s, i, n - 1);
    } else {
      SkipFactor(t, s, i, n - 1);
      TimesSwap(Skip(t, s, i, n - 1), Gap(t, s[i].x), Gap(t, s[n - 1].x));
    }
  }

  /** With distinct nodes, no node's own denominator vanishes. */
  lemma {:induction false} SkipNonZero(s: seq<Point>, i: nat, n: nat)
    requires Distinct(s) && i < |s| && n <= |s|
    ensures Skip(s[i].x, s, i, n) != 0.0
  {
    if n > 0 {
      SkipNonZero(s, i, n - 1);
      if n - 1 != i {
        assert X(s, i) != X(s, n - 1);
        TimesNonZero(Skip(s[i].x, s, i, n - 1), Gap(s[i].x, s[n - 1].x));
      }
    }
  }

  /** The Lagrange basis polynomial of node i among the first n nodes,
      evaluated at t. */
  ghost function Basis(s: seq<Point>, n: nat, i: nat, t: int): real
    requires Distinct(s) && i < n <= |s|
  {
    SkipNonZero(s, i, n);
    Times(Skip(t, s, i, n), Recip(Skip(s[i].x, s, i, n)))
  }

  /** 1 / (D_i (xi - a)) where D_i is node i's denominator among the first
      n - 1 nodes and a is node n - 1: the reciprocal of node i's
      denominator among the first n nodes. */
  ghost function Inv(s: seq<Point>, n: nat, i: nat): real
    requires Distinct(s) && i < n - 1 && n <= |s|
  {
    SkipNonZero(s, i, n);
    Recip(Skip(s[i].x, s, i, n))
  }

  /** The sum of the first m basis values over the first n nodes, at t. */
  ghost function WeightSum(s: seq<Point>, n: nat, t: int, m: nat): real
    requires Distinct(s) && m <= n <= |s|
  {
    if m == 0 then 0.0 else WeightSum(s, n, t, m - 1) + Basis(s, n, m - 1, t)
  }

  /** The sum of `Inv(s, n, i)` over the first m earlier nodes. */
  ghost function InvSum(s: seq<Point>, n: nat, m: nat): real
    requires Distinct(s) && m < n <= |s|
  {
    if m == 0 then 0.0 else InvSum(s, n, m - 1) + Inv(s, n, m - 1)
  }

  /** The value of the polynomial c at x, as a real. */
  function Value(c: seq<int>, x: int): real {
    Eval(c, x) as real
  }

  /** The first m terms c(xi) basis_i(t) of the Lagrange form over the
      first n nodes of the polynomial c. */
  ghost function TermSum(s: seq<Point>, n: nat, c: seq<int>, t: int, m: nat): real
    requires Distinct(s) && m <= n <= |s|
  {
    if m == 0 then 0.0 else TermSum(s, n, c, t, m - 1) + Times(Value(c, s[m - 1].x), Basis(s, n, m - 1, t))
  }

  /** The non-zero facts about node i when node n - 1 joins. */
  lemma {:induction false} AddNodeNonZero(s: seq<Point>, n: nat, i: nat)
    requires Distinct(s) && i < n - 1 && n <= |s|
    ensures Skip(s[i].x, s, i, n - 1) != 0.0 && Gap(s[i].x, s[n - 1].x) != 0.0
    ensures Skip(s[i].x, s, i, n) != 0.0
  {
    SkipNonZero(s, i, n - 1);
    SkipNonZero(s, i, n);
    assert X(s, i) != X(s, n - 1);
  }

  /** 1 / (D_i (xi - a)) times (xi - a) is 1 / D_i. */
  lemma {:induction false} InvCancel(s: seq<Point>, n: nat, i: nat)
    requires Distinct(s) && i < n - 1 && n <= |s|
    ensures Skip(s[i].x, s, i, n - 1) != 0.0
    ensures Times(Inv(s, n, i), Gap(s[i].x, s[n - 1].x)) == Recip(Skip(s[i].x, s, i, n - 1))
  {
    AddNodeNonZero(s, n, i);
    RecipCancel(Skip(s[i].x, s, i, n), Skip(s[i].x, s, i, n - 1), Gap(s[i].x, s[n - 1].x));
  }

  /** Adding node a = x(n-1): for an earlier node i,
      basis_n(i, t) = basis_{n-1}(i, t) + P(t) / (D_i (xi - a)), where P(t)
      is the product of t - xj over the first n - 1 nodes. */
  lemma {:induction false} BasisAddNode(s: seq<Point>, n: nat, i: nat, t: int)
    requires Distinct(s) && i < n - 1 && n <= |s|
    ensures Basis(s, n, i, t) == Basis(s, n - 1, i, t) + Times(Full(t, s, n - 1), Inv(s, n, i))
  {
    var xi, a := s[i].x, s[n - 1].x;
    var A, I := Skip(t, s, i, n - 1), Inv(s, n, i);
    InvCancel(s, n, i);
    GapSplit(t, xi, a);
    TimesPlus(A, Gap(t, xi), Gap(xi, a), Gap(t, a));
    TimesPlusLeft(I, Times(A, Gap(t, xi)), Times(A, Gap(xi, a)), Times(A, Gap(t, a)));
    SkipFactor(t, s, i, n - 1);
    TimesAssoc(A, Gap(xi, a), I);
    TimesComm(Gap(xi, a), I);
  }

  /** At the newest node a, an earlier node's old basis value is
      -P(a) / (D_i (xi - a)). */
  lemma {:induction false} BasisAtLastNode(s: seq<Point>, n: nat, i: nat)
    requires Distinct(s) && i < n - 1 && n <= |s|
    ensures Basis(s, n - 1, i, s[n - 1].x) == -Times(Full(s[n - 1].x, s, n - 1), Inv(s, n, i))
  {
    var xi, a := s[i].x, s[n - 1].x;
    var A, I := Skip(a, s, i, n - 1), Inv(s, n, i);
    InvCancel(s, n, i);
    SkipFactor(a, s, i, n - 1);
    TimesAssoc(A, Gap(a, xi), I);
    GapSplit(a, xi, a);
    TimesComm(Gap(a, xi), I);
    TimesNeg(I, Gap(xi, a), Gap(a, xi));
    TimesNeg(A, Recip(Skip(xi, s, i, n - 1)), Times(Gap(a, xi), I));
  }

  /** The first m basis values over n nodes against those over n - 1 nodes. */
  lemma {:induction false} UnityAddNode(s: seq<Point>, n: nat, t: int, m: nat)
    requires Distinct(s) && m < n <= |s|
    ensures WeightSum(s, n, t, m) == WeightSum(s, n - 1, t, m) + Times(Full(t, s, n - 1), InvSum(s, n, m))
  {
    if m > 0 {
      UnityAddNode(s, n, t, m - 1);
      BasisAddNode(s, n, m - 1, t);
      TimesPlus(Full(t, s, n - 1), InvSum(s, n, m - 1), Inv(s, n, m - 1), InvSum(s, n, m));
    }
  }

  lemma {:induction false} UnityAtLastNode(s: seq<Point>, n: nat, m: nat)
    requires Distinct(s) && m < n <= |s|
    ensures WeightSum(s, n - 1, s[n - 1].x, m) == -Times(Full(s[n - 1].x, s, n - 1), InvSum(s, n, m))
  {
    if m > 0 {
      UnityAtLastNode(s, n, m - 1);
      BasisAtLastNode(s, n, m - 1);
      TimesPlus(Full(s[n - 1].x, s, n - 1), InvSum(s, n, m - 1), Inv(s, n, m - 1), InvSum(s, n, m));
    }
  }

  /** The newest node's own basis value: P(t) / P(a). */
  lemma {:induction false} LastBasis(s: seq<Point>, n: nat, t: int)
    requires Distinct(s) && 0 < n <= |s|
    ensures Full(s[n - 1].x, s, n - 1) != 0.0
    ensures Basis(s, n, n - 1, t) == Times(Full(t, s, n - 1), Recip(Full(s[n - 1].x, s, n - 1)))
  {
    SkipNonZero(s, n - 1, n);
    SkipBeyond(t, s, n - 1, n - 1);
    SkipBeyond(s[n - 1].x, s, n - 1, n - 1);
  }

  /** Summing the reciprocal denominators: when the first n - 1 basis
      values sum to one at a, the sum is -1 / P(a). */
  lemma {:induction false} InvTotal(s: seq<Point>, n: nat)
    requires Distinct(s) && 1 < n <= |s|
    requires WeightSum(s, n - 1, s[n - 1].x, n - 1) == 1.0
    ensures Full(s[n - 1].x, s, n - 1) != 0.0
    ensures InvSum(s, n, n - 1) == -Recip(Full(s[n - 1].x, s, n - 1))
  {
    UnityAtLastNode(s, n, n - 1);
    LastBasis(s, n, 0);
    assert Full(s[n - 1].x, s, n - 1) != 0.0;
    assert Times(Full(s[n - 1].x, s, n - 1), InvSum(s, n, n - 1)) == -1.0;
    RecipNegUnique(Full(s[n - 1].x, s, n - 1), InvSum(s, n, n - 1));
  }

  /** The basis values sum to one at every integer t: the Lagrange form of the
      constant 1 is exact. */
  lemma {:induction false} PartitionOfUnity(s: seq<Point>, n: nat, t: int)
    requires Distinct(s) && 0 < n <= |s|
    ensures WeightSum(s, n, t, n) == 1.0
  {
    if n == 1 {
      assert Skip(t, s, 0, 1) == 1.0;
      assert Skip(s[0].x, s, 0, 1) == 1.0;
      RecipOne(Skip(s[0].x, s, 0, 1));
    } else {
      var a := s[n - 1].x;
      PartitionOfUnity(s, n - 1, t);
      PartitionOfUnity(s, n - 1, a);
      UnityAddNode(s, n, t, n - 1);
      InvTotal(s, n);
      LastBasis(s, n, t);
      TimesNeg(Full(t, s, n - 1), Recip(Full(a, s, n - 1)), InvSum(s, n, n - 1));
    }
  }

  /** The factor theorem read over the reals. */
  lemma DivideReal(c: seq<int>, a: int, x: int)
    ensures Value(c, x) == Value(c, a) + Times(Gap(x, a), Value(Quotient(c, a), x))
  {
    Divide(c, a, x);
    CastTimes(x - a, Eval(Quotient(c, a), x));
  }

  /** basis_n(i, t) (xi - a) = (t - a) basis_{n-1}(i, t) for an earlier
      node i. */
  lemma {:induction false} BasisTimesGap(s: seq<Point>, n: nat, i: nat, t: int)
    requires Distinct(s) && i < n - 1 && n <= |s|
    ensures Times(Basis(s, n, i, t), Gap(s[i].x, s[n - 1].x)) == Times(Gap(t, s[n - 1].x), Basis(s, n - 1, i, t))
  {
    var xi, a := s[i].x, s[n - 1].x;
    var A, I := Skip(t, s, i, n - 1), Inv(s, n, i);
    InvCancel(s, n, i);
    TimesAssoc(Times(A, Gap(t, a)), I, Gap(xi, a));
    TimesRotate(A, Gap(t, a), Recip(Skip(xi, s, i, n - 1)));
  }

  /** The term of node i splits into c(a) basis_n(i, t) and (t - a) times the
      term of node i in the Lagrange form of g over n - 1 nodes, where
      c(xi) = c(a) + (xi - a) g(xi). */
  lemma {:induction false} TermAddNode(s: seq<Point>, n: nat, c: seq<int>, t: int, i: nat)
    requires Distinct(s) && i < n - 1 && n <= |s|
    ensures Times(Value(c, s[i].x), Basis(s, n, i, t))
      == Times(Value(c, s[n - 1].x), Basis(s, n, i, t))
       + Times(Gap(t, s[n - 1].x), Times(Value(Quotient(c, s[n - 1].x), s[i].x), Basis(s, n - 1, i, t)))
  {
    var xi, a := s[i].x, s[n - 1].x;
    var B, e := Basis(s, n, i, t), Value(Quotient(c, a), xi);
    DivideReal(c, a, xi);
    TimesPlusLeft(B, Value(c, a), Times(Gap(xi, a), e), Value(c, xi));
    TimesRotate(Gap(xi, a), e, B);
    TimesComm(Gap(xi, a), B);
    BasisTimesGap(s, n, i, t);
    TimesExchange(e, Gap(t, a), Basis(s, n - 1, i, t));
  }

  /** The first m terms over n nodes, split at the newest node a. */
  lemma {:induction false} ReproduceSum(s: seq<Point>, n: nat, c: seq<int>, t: int, m: nat)
    requires Distinct(s) && m < n <= |s|
    ensures TermSum(s, n, c, t, m)
      == Times(Value(c, s[n - 1].x), WeightSum(s, n, t, m)) + Times(Gap(t, s[n - 1].x), TermSum(s, n - 1, Quotient(c, s[n - 1].x), t, m))
  {
    if m > 0 {
      var a, g := s[n - 1].x, Quotient(c, s[n - 1].x);
      ReproduceSum(s, n, c, t, m - 1);
      TermAddNode(s, n, c, t, m - 1);
      TimesPlus(Value(c, a), WeightSum(s, n, t, m - 1), Basis(s, n, m - 1, t), WeightSum(s, n, t, m));
      TimesPlus(Gap(t, a), TermSum(s, n - 1, g, t, m - 1), Times(Value(g, s[m - 1].x), Basis(s, n - 1, m - 1, t)),
                TermSum(s, n - 1, g, t, m));
    }
  }

  /** The closing step of `Reproduce`, given the theorem for the quotient. */
  lemma {:induction false} ReproduceStep(s: seq<Point>, n: nat, c: seq<int>, t: int)
    requires Distinct(s) && 0 < n <= |s|
    requires TermSum(s, n - 1, Quotient(c, s[n - 1].x), t, n - 1) == Value(Quotient(c, s[n - 1].x), t)
    ensures TermSum(s, n, c, t, n) == Value(c, t)
  {
    var a := s[n - 1].x;
    ReproduceSum(s, n, c, t, n - 1);
    PartitionOfUnity(s, n, t);
    TimesPlus(Value(c, a), WeightSum(s, n, t, n - 1), Basis(s, n, n - 1, t), WeightSum(s, n, t, n));
    DivideReal(c, a, t);
  }

  /** The interpolation theorem: with pairwise distinct nodes, the Lagrange
      form over the first n nodes of a polynomial of degree below n equals
      the polynomial at every integer point. */
  lemma {:induction false} Reproduce(s: seq<Point>, n: nat, c: seq<int>, t: int)
    requires Distinct(s) && |c| <= n <= |s|
    ensures TermSum(s, n, c, t, n) == Value(c, t)
  {
    if n == 0 {
      assert c == [];
    } else {
      Reproduce(s, n - 1, Quotient(c, s[n - 1].x), t);
      ReproduceStep(s, n, c, t);
    }
  }
}

=== FILE: lagrange.dfy ===
/** `lagrangeInterpolation(points, k)` (index.js): the value at x = 0 of the
    interpolating polynomial, built in BigInt arithmetic from the first `k`
    points, one truncating division per term. */
module Lagrange {
  import opened Wrappers
  import opened Arith
  import opened Points

  /** `points.slice(0, k)`: a negative end counts back from the length, an
      end past the length stops there. */
  function Slice(points: seq<Point>, k: int): (s: seq<Point>)
    ensures s <= points
    ensures 0 <= k <= |points| ==> s == points[..k]
    ensures k >= |points| ==> s == points
  {
    var end :=
      if k < 0 then (if |points| + k > 0 then |points| + k else 0)
      else if k < |points| then k
      else |points|;
    points[..end]
  }

  /** The contribution of point `i`: `yi * numerator / denominator`, where
      the numerator multiplies `0 - xj` and the denominator `xi - xj` over
      every other point `j`. `None` is the RangeError of a zero denominator. */
  function Term(s: seq<Point>, i: nat): Option<int>
    requires i < |s|
  {
    var others := Others(s, i);
    TruncDiv(s[i].y * Span(0, others), Span(s[i].x, others))
  }

  /** BigInt addition, where an exception on either side propagates. */
  function AddOpt(a: Option<int>, b: Option<int>): Option<int> {
    if a.Some? && b.Some? then Some(a.value + b.value) else None
  }

  /** The running sum of the first `n` terms, in loop order. */
  function SumTerms(s: seq<Point>, n: nat): Option<int>
    requires n <= |s|
  {
    if n == 0 then Some(0) else AddOpt(SumTerms(s, n - 1), Term(s, n - 1))
  }

  /** The constant term Lagrange's formula gives for the points `s`. */
  function LagrangeAtZero(s: seq<Point>): Option<int> {
    SumTerms(s, |s|)
  }

  /** `lagrangeInterpolation(points, k)` as a function of its arguments. */
  function LagrangeInterpolation(points: seq<Point>, k: int): Option<int> {
    LagrangeAtZero(Slice(points, k))
  }

  /** The points other than `i` among the first `j`: what the inner loop has
      multiplied in so far. */
  function OthersBefore(s: seq<Point>, i: nat, j: nat): seq<Point>
    requires i < |s| && j <= |s|
  {
    if j <= i then s[..j] else s[..i] + s[i + 1..j]
  }

  /** The inner loop of `lagrangeInterpolation`: the numerator and the
      denominator of point i's basis value at zero, multiplied up over every
      other point in order. */
  method BasisAtZero(selected: seq<Point>, i: nat) returns (numerator: int, denominator: int)
    requires i < |selected|
    ensures numerator == Span(0, Others(selected, i))
    ensures denominator == Span(selected[i].x, Others(selected, i))
  {
    var xi := selected[i].x;
    numerator := 1;
    denominator := 1;
    var j := 0;
    while j < |selected|
      invariant 0 <= j <= |selected|
      invariant numerator == Span(0, OthersBefore(selected, i, j))
      invariant denominator == Span(xi, OthersBefore(selected, i, j))
    {
      SpanStep(0, selected, i, j);
      SpanStep(xi, selected, i, j);
      if i != j {
        var xj := selected[j].x;
        numerator := numerator * (0 - xj);
        denominator := denominator * (xi - xj);
      }
      j := j + 1;
    }
    OthersBeforeAll(selected, i);
  }

  /** One more step of the inner loop: point j is multiplied in unless it
      is point i itself. */
  lemma SpanStep(t: int, s: seq<Point>, i: nat, j: nat)
    requires i < |s| && j < |s|
    ensures Span(t, OthersBefore(s, i, j + 1)) ==
      if i == j then Span(t, OthersBefore(s, i, j)) else Span(t, OthersBefore(s, i, j)) * (t - s[j].x)
  {
    if i != j {
      assert OthersBefore(s, i, j + 1) == OthersBefore(s, i, j) + [s[j]];
      SpanSnoc(t, OthersBefore(s, i, j), s[j]);
    } else {
      assert OthersBefore(s, i, j + 1) == OthersBefore(s, i, j);
    }
  }

  lemma OthersBeforeAll(s: seq<Point>, i: nat)
    requires i < |s|
    ensures OthersBefore(s, i, |s|) == Others(s, i)
  {
  }

  /** The loops of `lagrangeInterpolation`, statement for statement. */
  method Interpolate(points: seq<Point>, k: int) returns (secret: Option<int>)
    ensures secret == LagrangeInterpolation(points, k)
    ensures secret.None? <==> !DistinctX(Slice(points, k))
  {
    var selected := Slice(points, k);
    var sum := 0;
    var i := 0;
    while i < |selected|
      invariant 0 <= i <= |selected|
      invariant SumTerms(selected, i) == Some(sum)
    {
      var yi := selected[i].y;
      var numerator, denominator := BasisAtZero(selected, i);
      var term := TruncDiv(yi * numerator, denominator);
      if term.None? {
        SumTermsAbsorbs(selected, i, |selected|);
        FailsIffDuplicate(selected);
        return None;
      }
      sum := sum + term.value;
      i := i + 1;
    }
    FailsIffDuplicate(selected);
    return Some(sum);
  }

  /** Once a term has thrown, the sum stays failed. */
  lemma {:induction false} SumTermsAbsorbs(s: seq<Point>, i: nat, n: nat)
    requires i < n <= |s| && Term(s, i).None?
    ensures SumTerms(s, n).None?
  {
    if n - 1 > i {
      SumTermsAbsorbs(s, i, n - 1);
    }
  }

  /** The sum fails exactly when one of its terms does. */
  lemma {:induction false} SumTermsNone(s: seq<Point>, n: nat)
    requires n <= |s|
    ensures SumTerms(s, n).None? <==> exists i :: 0 <= i < n && Term(s, i).None?
  {
    if n > 0 {
      SumTermsNone(s, n - 1);
    }
  }

  /** Lagrange's formula throws (a zero BigInt divisor) exactly when two of
      the points share an x. */
  lemma FailsIffDuplicate(s: seq<Point>)
    ensures LagrangeAtZero(s).None? <==> !DistinctX(s)
  {
    SumTermsNone(s, |s|);
    if !DistinctX(s) {
      var i, j :| 0 <= i < |s| && 0 <= j < |s| && i != j && s[i].x == s[j].x;
      var m := if j < i then j else j - 1;
      OthersAt(s, i);
      assert Others(s, i)[m] == s[j];
      SpanZero(s[i].x, Others(s, i));
      assert Span(s[i].x, Others(s, i)) == 0;
      assert Term(s, i).None?;
    } else {
      forall i | 0 <= i < |s|
        ensures Term(s, i).Some?
      {
        DenominatorNonZero(s, i);
      }
    }
  }

  /** A lone point: numerator and denominator stay 1 and the result is its y. */
  lemma SinglePoint(points: seq<Point>, k: int)
    requires |Slice(points, k)| == 1
    ensures LagrangeInterpolation(points, k) == Some(points[0].y)
  {
    var s := Slice(points, k);
    assert s[0] == points[0];
    assert Others(s, 0) == [];
    TruncDivExact(s[0].y * 1, 1, s[0].y);
    assert Term(s, 0) == Some(s[0].y);
    assert SumTerms(s, 1) == AddOpt(Some(0), Term(s, 0));
  }

  /** Threshold 1: the secret is the first point's y. */
  lemma ThresholdOne(points: seq<Point>)
    requires |points| >= 1
    ensures LagrangeInterpolation(points, 1) == Some(points[0].y)
  {
    SinglePoint(points, 1);
  }

  /** Only the first `k` points are read: points from position `k` on may be
      changed, added or removed without changing the result. */
  lemma FirstKOnly(p: seq<Point>, q: seq<Point>, k: int)
    requires 0 <= k <= |p| && k <= |q|
    requires p[..k] == q[..k]
    ensures LagrangeInterpolation(p, k) == LagrangeInterpolation(q, k)
  {
  }

  /** The worked example: (1, 4) and (2, 7) give 4*(-2)/(1-2) + 7*(-1)/(2-1)
      = 8 - 7 = 1. */
  lemma TwoPointExample()
    ensures LagrangeInterpolation([Point(1, 4), Point(2, 7)], 2) == Some(1)
  {
    var s := [Point(1, 4), Point(2, 7)];
    assert Slice(s, 2) == s;
    assert Others(s, 0) == [Point(2, 7)];
    assert Others(s, 1) == [Point(1, 4)];
    assert Span(0, [Point(2, 7)]) == -2 by { assert [Point(2, 7)][..0] == []; }
    assert Span(1, [Point(2, 7)]) == -1 by { assert [Point(2, 7)][..0] == []; }
    assert Span(0, [Point(1, 4)]) == -1 by { assert [Point(1, 4)][..0] == []; }
    assert Span(2, [Point(1, 4)]) == 1 by { assert [Point(1, 4)][..0] == []; }
    TruncDivExact(4 * -2, -1, 8);
    TruncDivExact(7 * -1, 1, -7);
    assert Term(s, 0) == Some(8);
    assert Term(s, 1) == Some(-7);
  }
}

=== FILE: points.dfy ===
/** Interpolation points and the products Lagrange's formula is built from. */
module Points {

  /** A share decoded to a point: `x` from the entry's key, `y` from its value. */
  datatype Point = Point(x: int, y: int)

  /** Every point of `s` except the one at index `i`, in order. */
  function Others(s: seq<Point>, i: nat): (o: seq<Point>)
    requires i < |s|
    ensures |o| == |s| - 1
  {
    s[..i] + s[i + 1..]
  }

  lemma OthersAt(s: seq<Point>, i: nat)
    requires i < |s|
    ensures forall m :: 0 <= m < |s| - 1 ==> Others(s, i)[m] == if m < i then s[m] else s[m + 1]
  {
    var o := Others(s, i);
    forall m | 0 <= m < |s| - 1
      ensures o[m] == if m < i then s[m] else s[m + 1]
    {
      if m < i {
        assert o[m] == s[..i][m];
      } else {
        assert o[m] == s[i + 1..][m - i];
      }
    }
  }

  lemma OthersMultiset(s: seq<Point>, i: nat)
    requires i < |s|
    ensures multiset(Others(s, i)) == multiset(s) - multiset{s[i]}
  {
    assert s == s[..i] + [s[i]] + s[i + 1..];
  }

  /** The product of `t - q.x` over the points `q` of `s`. With `t = 0` it is
      a Lagrange numerator, with `t = xi` a Lagrange denominator. */
  function Span(t: int, s: seq<Point>): int {
    if |s| == 0 then 1 else Span(t, s[..|s| - 1]) * (t - s[|s| - 1].x)
  }

  /** The product vanishes exactly when one of its factors does. */
  lemma {:induction false} SpanZero(t: int, s: seq<Point>)
    ensures Span(t, s) == 0 <==> exists j :: 0 <= j < |s| && s[j].x == t
  {
    if |s| > 0 {
      var init := s[..|s| - 1];
      SpanZero(t, init);
      assert forall j :: 0 <= j < |init| ==> init[j] == s[j];
    }
  }

  /** No two points share an x: the interpolation nodes are pairwise distinct. */
  predicate DistinctX(s: seq<Point>) {
    forall i, j :: 0 <= i < |s| && 0 <= j < |s| && i != j ==> s[i].x != s[j].x
  }

  lemma SpanSnoc(t: int, s: seq<Point>, p: Point)
    ensures Span(t, s + [p]) == Span(t, s) * (t - p.x)
  {
    assert (s + [p])[..|s|] == s;
  }

  /** Any one factor can be taken out of the product. */
  lemma {:induction false} SpanOthers(t: int, s: seq<Point>, j: nat)
    requires j < |s|
    ensures Span(t, s) == Span(t, Others(s, j)) * (t - s[j].x)
  {
    var n := |s|;
    var init := s[..n - 1];
    var last := s[n - 1];
    assert s == init + [last];
    SpanSnoc(t, init, last);
    if j < n - 1 {
      var o := Others(init, j);
      assert init[j] == s[j];
      SpanOthers(t, init, j);
      var a, b, c := Span(t, o), t - s[j].x, t - last.x;
      assert Span(t, init) == a * b;
      assert Others(s, j) == o + [last];
      SpanSnoc(t, o, last);
      assert Span(t, Others(s, j)) == a * c;
      Rearrange(a, b, c);
    } else {
      assert Others(s, j) == init;
    }
  }

  lemma Rearrange(a: int, b: int, c: int)
    ensures a * b * c == a * c * b
  {
  }

  /** The product does not depend on the order of the points. */
  lemma {:induction false} SpanPermutation(t: int, a: seq<Point>, b: seq<Point>)
    requires multiset(a) == multiset(b)
    ensures Span(t, a) == Span(t, b)
    decreases |a|
  {
    if |a| == 0 {
      assert |b| == |multiset(b)| == 0;
    } else {
      var n := |a|;
      var init := a[..n - 1];
      var last := a[n - 1];
      var j := MatchLast(a, b);
      assert a == init + [last];
      SpanPermutation(t, init, Others(b, j));
      SpanSnoc(t, init, last);
      assert Span(t, a) == Span(t, init) * (t - last.x);
      SpanOthers(t, b, j);
      assert Span(t, b) == Span(t, Others(b, j)) * (t - last.x);
    }
  }

  /** Where the last point of `a` sits in a permutation `b` of it, and what
      is left on both sides once it is removed. */
  lemma MatchLast<T>(a: seq<T>, b: seq<T>) returns (j: nat)
    requires |a| > 0 && multiset(a) == multiset(b)
    ensures j < |b| && b[j] == a[|a| - 1]
    ensures multiset(a[..|a| - 1]) == multiset(b[..j] + b[j + 1..])
  {
    var n := |a|;
    assert a == a[..n - 1] + [a[n - 1]];
    assert a[n - 1] in multiset(b);
    j :| 0 <= j < |b| && b[j] == a[n - 1];
    assert b == b[..j] + [b[j]] + b[j + 1..];
    assert multiset(b) == multiset(b[..j] + b[j + 1..]) + multiset{b[j]};
    assert multiset(a) == multiset(a[..n - 1]) + multiset{b[j]};
    assert multiset(b[..j] + b[j + 1..]) == multiset(b) - multiset{b[j]};
    assert multiset(a[..n - 1]) == multiset(a) - multiset{b[j]};
  }

  /** With distinct nodes no Lagrange denominator vanishes. */
  lemma DenominatorNonZero(s: seq<Point>, i: nat)
    requires DistinctX(s) && i < |s|
    ensures Span(s[i].x, Others(s, i)) != 0
  {
    var o := Others(s, i);
    OthersAt(s, i);
    SpanZero(s[i].x, o);
    if Span(s[i].x, o) == 0 {
      var m :| 0 <= m < |o| && o[m].x == s[i].x;
      assert false;
    }
  }

  /** A vanishing Lagrange denominator means two nodes coincide. */
  lemma DenominatorZero(s: seq<Point>, i: nat)
    requires i < |s| && Span(s[i].x, Others(s, i)) == 0
    ensures !DistinctX(s)
  {
    var o := Others(s, i);
    OthersAt(s, i);
    SpanZero(s[i].x, o);
    var m :| 0 <= m < |o| && o[m].x == s[i].x;
    var j := if m < i then m else m + 1;
    assert s[j].x == s[i].x && j != i;
  }
}

=== FILE: polynomial.dfy ===
/** Integer polynomials, the objects a Shamir share set is sampled from: the
    secret is the constant term and the shares are values at x = 1, 2, ... */
module Polynomial {

  /** The value at `x` of the polynomial with coefficients `c`, lowest degree
      first: c[0] + c[1] x + c[2] x^2 + ... */
  function Eval(c: seq<int>, x: int): int {
    if |c| == 0 then 0 else c[0] + x * Eval(c[1..], x)
  }

  /** The secret a polynomial hides. */
  function ConstantTerm(c: seq<int>): int {
    if |c| == 0 then 0 else c[0]
  }

  lemma EvalAtZero(c: seq<int>)
    ensures Eval(c, 0) == ConstantTerm(c)
  {
  }

  /** The quotient of c(X) - c(a) by X - a (synthetic division): with
      c(X) = c[0] + X h(X), it is h(a) + X times the quotient for h. */
  function Quotient(c: seq<int>, a: int): (q: seq<int>)
    ensures |q| == if |c| == 0 then 0 else |c| - 1
  {
    if |c| <= 1 then [] else [Eval(c[1..], a)] + Quotient(c[1..], a)
  }

  /** The factor theorem: c(x) = c(a) + (x - a) q(x), q of lower degree. */
  lemma {:induction false} Divide(c: seq<int>, a: int, x: int)
    ensures Eval(c, x) == Eval(c, a) + (x - a) * Eval(Quotient(c, a), x)
  {
    if |c| >= 2 {
      var h := c[1..];
      var q := Quotient(c, a);
      Divide(h, a, x);
      assert q[1..] == Quotient(h, a);
      ShiftedFactor(x, a, Eval(h, x), Eval(h, a), Eval(Quotient(h, a), x));
    }
  }

  /** The algebra of one synthetic-division step. */
  lemma ShiftedFactor(x: int, a: int, hx: int, ha: int, qx: int)
    requires hx - ha == (x - a) * qx
    ensures x * hx - a * ha == (x - a) * (ha + x * qx)
  {
    calc {
      (x - a) * (ha + x * qx);
      (x - a) * ha + x * ((x - a) * qx);
      (x - a) * ha + x * (hx - ha);
      x * hx - a * ha;
    }
  }
}

=== FILE: radix.dfy ===
/** `convertFromBase` (index.js): `BigInt(parseInt(value, base))`.
    `parseInt` is modelled as ECMA-262 section 19.2.5 describes it: an optional
    sign, the radix argument taken through ToInt32 (0 meaning 10, or 16 after a
    `0x` prefix), then the longest run of characters that are digits in that
    radix. An empty run is NaN, and `BigInt(NaN)` throws. */
module Radix {
  import opened Wrappers
  import opened Errors
  import Arith

  /** Number.MAX_SAFE_INTEGER, 2^53 - 1: the largest integer n such that
      both n and n + 1 are exactly representable as doubles. */
  const MaxSafeInteger: int := 0x1F_FFFF_FFFF_FFFF

  /** The value of `c` as a digit in radix notation up to 36: `0`-`9`, then
      `a`-`z` (or `A`-`Z`) for 10 to 35. */
  function DigitOf(c: char): (d: Option<nat>)
    ensures d.Some? ==> d.value < 36
  {
    if '0' <= c <= '9' then Some(c as int - '0' as int)
    else if 'a' <= c <= 'z' then Some(c as int - 'a' as int + 10)
    else if 'A' <= c <= 'Z' then Some(c as int - 'A' as int + 10)
    else None
  }

  predicate IsDigit(c: char, radix: nat) {
    DigitOf(c).Some? && DigitOf(c).value < radix
  }

  predicate AllDigits(s: string, radix: nat) {
    forall i :: 0 <= i < |s| ==> IsDigit(s[i], radix)
  }

  /** The lower-case character for digit value `d`. */
  function DigitChar(d: nat): (c: char)
    requires d < 36
    ensures DigitOf(c) == Some(d)
  {
    if d < 10 then ('0' as int + d) as char else ('a' as int + d - 10) as char
  }

  function Pow(b: nat, e: nat): nat {
    if e == 0 then 1 else b * Pow(b, e - 1)
  }

  /** The value of a digit string read the way a parser reads it: each new
      digit multiplies what came before by the radix. */
  function Horner(s: string, radix: nat): nat
    requires AllDigits(s, radix)
  {
    if |s| == 0 then 0
    else Horner(s[..|s| - 1], radix) * radix + DigitOf(s[|s| - 1]).value
  }

  /** The textbook positional value: the sum of d_i * radix^(len - 1 - i). */
  function Positional(s: string, radix: nat): nat
    requires AllDigits(s, radix)
  {
    if |s| == 0 then 0
    else DigitOf(s[0]).value * Pow(radix, |s| - 1) + Positional(s[1..], radix)
  }

  /** The longest prefix of `s` made of digits in `radix`: `parseInt` stops at
      the first character that is not one and ignores the rest. */
  function DigitPrefix(s: string, radix: nat): (p: string)
    ensures p <= s && AllDigits(p, radix)
    ensures |p| < |s| ==> !IsDigit(s[|p|], radix)
  {
    if |s| == 0 || !IsDigit(s[0], radix) then []
    else [s[0]] + DigitPrefix(s[1..], radix)
  }

  /** ToInt32 (ECMA-262 section 7.1.6): reduce modulo 2^32 into the signed range. */
  function ToInt32(n: int): (r: int)
    ensures -0x8000_0000 <= r < 0x8000_0000
    ensures (r - n) % 0x1_0000_0000 == 0
  {
    var m := n % 0x1_0000_0000;
    if m >= 0x8000_0000 then m - 0x1_0000_0000 else m
  }

  /** `s` after an optional leading sign. */
  function Unsigned(s: string): string {
    if |s| > 0 && (s[0] == '-' || s[0] == '+') then s[1..] else s
  }

  predicate HasHexPrefix(s: string) {
    |s| >= 2 && s[0] == '0' && (s[1] == 'x' || s[1] == 'X')
  }

  /** The radix `parseInt` reads in and the text it reads, from the radix
      argument after ToInt32 and the value after its sign; `None` when the
      radix argument alone makes the result NaN. */
  function RadixAndBody(r32: int, unsigned: string): (rb: Option<(nat, string)>)
    ensures rb.Some? ==> 2 <= rb.value.0 <= 36
  {
    if r32 != 0 && (r32 < 2 || r32 > 36) then None
    else if (r32 == 0 || r32 == 16) && HasHexPrefix(unsigned) then Some((16, unsigned[2..]))
    else if r32 == 0 then Some((10, unsigned))
    else Some((r32, unsigned))
  }

  /** `BigInt(parseInt(value, base))`. `Failure(NotANumber)` is the RangeError
      `BigInt(NaN)` throws; `Failure(Imprecise)` marks a magnitude above
      2^53 - 1, where `parseInt` hands `BigInt` a double (rounded when not
      exact, or Infinity from about 2^1024 on), which the model does not
      compute. */
  function Decode(value: string, base: int): (r: Result<int, Failure>)
    ensures r.Success? ==> -MaxSafeInteger <= r.value <= MaxSafeInteger
    ensures r.Failure? ==> r.error == NotANumber || r.error == Imprecise
  {
    var negative := |value| > 0 && value[0] == '-';
    match RadixAndBody(ToInt32(base), Unsigned(value))
    case None => Failure(NotANumber)
    case Some((radix, body)) =>
      var digits := DigitPrefix(body, radix);
      if |digits| == 0 then Failure(NotANumber)
      else
        var magnitude: int := Horner(digits, radix);
        if magnitude > MaxSafeInteger then Failure(Imprecise)
        else Success(if negative then -magnitude else magnitude)
  }

  lemma ToInt32Small(n: int)
    requires 0 <= n < 0x8000_0000
    ensures ToInt32(n) == n
  {
  }

  /** With a radix of 2 to 36 and digits only, `parseInt` reads the whole string. */
  lemma {:induction false} DecodeAllDigits(s: string, base: int)
    requires 2 <= base <= 36
    requires |s| > 0 && AllDigits(s, base)
    ensures Unsigned(s) == s
    ensures RadixAndBody(ToInt32(base), s) == Some((base as nat, s))
    ensures DigitPrefix(s, base) == s
  {
    ToInt32Small(base);
    assert IsDigit(s[0], base);
    if |s| >= 2 {
      assert IsDigit(s[1], base);
    }
    FullPrefix(s, base);
  }

  /** Reading digits left to right computes the positional value. */
  lemma {:induction false} HornerIsPositional(s: string, radix: nat)
    requires AllDigits(s, radix)
    ensures Horner(s, radix) == Positional(s, radix)
  {
    if |s| > 0 {
      var init := s[..|s| - 1];
      HornerIsPositional(init, radix);
      PositionalSnoc(init, s[|s| - 1], radix);
      assert init + [s[|s| - 1]] == s;
    }
  }

  /** Appending a digit shifts the positional value one place. */
  lemma {:induction false} PositionalSnoc(s: string, c: char, radix: nat)
    requires AllDigits(s, radix) && IsDigit(c, radix)
    ensures AllDigits(s + [c], radix)
    ensures Positional(s + [c], radix) == Positional(s, radix) * radix + DigitOf(c).value
  {
    var t := s + [c];
    assert forall i :: 0 <= i < |s| ==> t[i] == s[i];
    assert t[|s|] == c;
    if |s| == 0 {
      assert t == [c];
    } else {
      var d := DigitOf(s[0]).value;
      var n := |s|;
      assert t[0] == s[0];
      assert t[1..] == s[1..] + [c];
      PositionalSnoc(s[1..], c, radix);
      var rest := Positional(s[1..], radix);
      var p := Pow(radix, n - 1);
      assert Positional(t, radix) == d * (radix * p) + (rest * radix + DigitOf(c).value);
      assert Positional(s, radix) == d * p + rest;
      ShiftPlace(d, p, rest, radix);
    }
  }

  lemma ShiftPlace(d: int, p: int, rest: int, radix: int)
    ensures d * (radix * p) + rest * radix == (d * p + rest) * radix
  {
    calc {
      (d * p + rest) * radix;
      d * p * radix + rest * radix;
      d * (radix * p) + rest * radix;
    }
  }

  /** The digits, most significant first, that spell `n` in `radix`. */
  function Encode(n: nat, radix: nat): (s: string)
    requires 2 <= radix <= 36
    ensures |s| > 0 && AllDigits(s, radix)
  {
    if n < radix then [DigitChar(n)]
    else
      Arith.DivModFacts(n, radix);
      Arith.QuotientSmaller(n, radix);
      var init := Encode(n / radix, radix);
      var last := DigitChar(n % radix);
      assert forall i :: 0 <= i < |init| ==> (init + [last])[i] == init[i];
      init + [last]
  }

  /** Reading back the digits `Encode` writes gives the number written. */
  lemma {:induction false} EncodeValue(n: nat, radix: nat)
    requires 2 <= radix <= 36
    ensures Horner(Encode(n, radix), radix) == n
  {
    if n < radix {
      HornerSnoc([], DigitChar(n), radix);
      assert [] + [DigitChar(n)] == [DigitChar(n)];
    } else {
      Arith.DivModFacts(n, radix);
      Arith.QuotientSmaller(n, radix);
      EncodeValue(n / radix, radix);
      HornerSnoc(Encode(n / radix, radix), DigitChar(n % radix), radix);
    }
  }

  lemma HornerSnoc(s: string, c: char, radix: nat)
    requires AllDigits(s, radix) && IsDigit(c, radix)
    ensures AllDigits(s + [c], radix)
    ensures Horner(s + [c], radix) == Horner(s, radix) * radix + DigitOf(c).value
  {
    var t := s + [c];
    assert forall i :: 0 <= i < |s| ==> t[i] == s[i];
    assert t[..|t| - 1] == s;
  }

  /** A string of valid digits decodes to its positional value, when that
      value is at most 2^53 - 1 (`Number.MAX_SAFE_INTEGER`). */
  lemma DecodeDigits(s: string, base: int)
    requires 2 <= base <= 36
    requires |s| > 0 && AllDigits(s, base)
    requires Positional(s, base) <= MaxSafeInteger
    ensures Decode(s, base) == Success(Positional(s, base))
  {
    DecodeAllDigits(s, base);
    HornerIsPositional(s, base);
  }

  /** Without a radix argument (ToInt32 gives 0), a string of decimal digits
      is read in decimal. */
  lemma DecodeDecimal(s: string)
    requires |s| > 0 && AllDigits(s, 10)
    requires Positional(s, 10) <= MaxSafeInteger
    ensures Decode(s, 0) == Success(Positional(s, 10))
  {
    assert IsDigit(s[0], 10);
    if |s| >= 2 {
      assert IsDigit(s[1], 10);
    }
    assert RadixAndBody(ToInt32(0), Unsigned(s)) == Some((10, s));
    FullPrefix(s, 10);
    HornerIsPositional(s, 10);
  }

  lemma {:induction false} FullPrefix(s: string, radix: nat)
    requires AllDigits(s, radix)
    ensures DigitPrefix(s, radix) == s
  {
    if |s| > 0 {
      FullPrefix(s[1..], radix);
    }
  }

  /** Round trip: the digits `Encode` writes decode to the number written. */
  lemma DecodeEncode(n: nat, base: int)
    requires 2 <= base <= 36 && n <= MaxSafeInteger
    ensures Decode(Encode(n, base), base) == Success(n)
  {
    var s := Encode(n, base);
    EncodeValue(n, base);
    HornerIsPositional(s, base);
    DecodeDigits(s, base);
  }

  /** The same number written in two radixes decodes to the same integer. */
  lemma BaseInvariance(n: nat, b1: int, b2: int)
    requires 2 <= b1 <= 36 && 2 <= b2 <= 36 && n <= MaxSafeInteger
    ensures Decode(Encode(n, b1), b1) == Decode(Encode(n, b2), b2) == Success(n)
  {
    DecodeEncode(n, b1);
    DecodeEncode(n, b2);
  }

  /** Characters after the first non-digit are ignored. */
  lemma DecodeIgnoresTail(s: string, tail: string, base: int)
    requires 2 <= base <= 36 && |s| > 0 && AllDigits(s, base)
    requires |tail| > 0 && !IsDigit(tail[0], base)
    requires base == 16 ==> !HasHexPrefix(s + tail)
    ensures Decode(s + tail, base) == Decode(s, base)
  {
    var t := s + tail;
    DecodeAllDigits(s, base);
    ToInt32Small(base);
    assert t[0] == s[0] && IsDigit(s[0], base);
    assert Unsigned(t) == t;
    if |s| >= 2 { assert t[1] == s[1] && IsDigit(s[1], base); }
    else { assert t[1] == tail[0]; }
    assert RadixAndBody(ToInt32(base), t) == Some((base as nat, t));
    PrefixStops(s, tail, base);
  }

  lemma {:induction false} PrefixStops(s: string, tail: string, radix: nat)
    requires AllDigits(s, radix)
    requires |tail| > 0 && !IsDigit(tail[0], radix)
    ensures DigitPrefix(s + tail, radix) == DigitPrefix(s, radix)
  {
    if |s| == 0 {
      assert s + tail == tail;
    } else {
      assert (s + tail)[1..] == s[1..] + tail;
      PrefixStops(s[1..], tail, radix);
    }
  }

  /** A leading minus sign negates the decoded value. */
  lemma DecodeNegative(s: string, base: int)
    requires 2 <= base <= 36 && |s| > 0 && AllDigits(s, base)
    requires Positional(s, base) <= MaxSafeInteger
    ensures Decode(['-'] + s, base) == Success(-(Positional(s, base) as int))
  {
    assert Unsigned(['-'] + s) == s;
    DecodeAllDigits(s, base);
    HornerIsPositional(s, base);
  }

  /** A radix outside 2..36 (after ToInt32, and other than 0) makes `parseInt`
      return NaN whatever the value. */
  lemma DecodeBadRadix(s: string, base: int)
    requires ToInt32(base) == 1 || ToInt32(base) < 0 || ToInt32(base) > 36
    ensures Decode(s, base) == Failure(NotANumber)
  {
  }

  /** The usage example: "111" in base 2 is 7. Also the same number written
      in two bases ("100" in base 2, "4" in base 10) decodes alike. */
  lemma DecodeExamples()
    ensures Decode("111", 2) == Success(7)
    ensures Decode("100", 2) == Decode("4", 10) == Success(4)
  {
    assert AllDigits("111", 2) by {
      assert forall i :: 0 <= i < 3 ==> "111"[i] == '1';
    }
    assert Positional("111", 2) == 7 by {
      assert "111"[1..] == "11" && "11"[1..] == "1" && "1"[1..] == "";
    }
    DecodeDigits("111", 2);
    assert AllDigits("100", 2) by {
      assert "100"[0] == '1' && "100"[1] == '0' && "100"[2] == '0';
    }
    assert Positional("100", 2) == 4 by {
      assert "100"[1..] == "00" && "00"[1..] == "0" && "0"[1..] == "";
    }
    DecodeDigits("100", 2);
    assert Positional("4", 10) == 4 by { assert "4"[1..] == ""; }
    DecodeDigits("4", 10);
  }
}

=== FILE: realalgebra.dfy ===
/** Products and reciprocals of reals, as the Lagrange proofs use them.

    A product is written `Times(a, b)` rather than `a * b` so that it stays a
    term of its own: an equation between factors then carries over to the
    products by congruence, and each rearrangement of factors is one of the
    small lemmas below. */
module RealAlgebra {

  function Times(a: real, b: real): real {
    a * b
  }

  lemma TimesComm(a: real, b: real)
    ensures Times(a, b) == Times(b, a)
  {
  }

  lemma TimesAssoc(a: real, b: real, c: real)
    ensures Times(Times(a, b), c) == Times(a, Times(b, c))
  {
  }

  /** (a b) c = (a c) b. */
  lemma TimesSwap(a: real, b: real, c: real)
    ensures Times(Times(a, b), c) == Times(Times(a, c), b)
  {
  }

  /** (a b) c = b (a c). */
  lemma TimesRotate(a: real, b: real, c: real)
    ensures Times(Times(a, b), c) == Times(b, Times(a, c))
  {
  }

  /** a (b c) = b (a c). */
  lemma TimesExchange(a: real, b: real, c: real)
    ensures Times(a, Times(b, c)) == Times(b, Times(a, c))
  {
  }

  /** Distributivity, with the sum named: d = b + c. */
  lemma TimesPlus(a: real, b: real, c: real, d: real)
    requires d == b + c
    ensures Times(a, d) == Times(a, b) + Times(a, c)
  {
  }

  lemma TimesPlusLeft(a: real, b: real, c: real, d: real)
    requires d == b + c
    ensures Times(d, a) == Times(b, a) + Times(c, a)
  {
  }

  lemma TimesNeg(a: real, b: real, d: real)
    requires d == -b
    ensures Times(a, d) == -Times(a, b)
  {
  }

  lemma TimesNonZero(a: real, b: real)
    requires a != 0.0 && b != 0.0
    ensures Times(a, b) != 0.0
  {
  }

  ghost predicate IsRecip(r: real, d: real) {
    r * d == 1.0
  }

  /** The multiplicative inverse of a non-zero real. */
  ghost function Recip(d: real): (r: real)
    requires d != 0.0
    ensures Times(r, d) == 1.0
    ensures r != 0.0
  {
    assert IsRecip(1.0 / d, d);
    var r :| IsRecip(r, d); r
  }

  /** The inverse is the quotient. */
  lemma RecipIsQuotient(d: real)
    requires d != 0.0
    ensures Recip(d) == 1.0 / d
  {
    var r, q := Recip(d), 1.0 / d;
    assert q * d == 1.0;
    assert (r - q) * d == 0.0;
  }

  /** 1 / (d v) times v is 1 / d. */
  lemma RecipCancel(dv: real, d: real, v: real)
    requires d != 0.0 && v != 0.0 && dv == Times(d, v)
    ensures dv != 0.0
    ensures Times(Recip(dv), v) == Recip(d)
  {
    RecipIsQuotient(dv);
    RecipIsQuotient(d);
  }

  /** The only x with d x = -1 is -1 / d. */
  lemma RecipNegUnique(d: real, x: real)
    requires d != 0.0 && Times(d, x) == -1.0
    ensures x == -Recip(d)
  {
    RecipIsQuotient(d);
    assert x * d == -1.0;
  }

  /** From q d = y n: q = y (n / d). */
  lemma DivideOut(q: real, d: real, y: real, n: real)
    requires d != 0.0 && Times(q, d) == Times(y, n)
    ensures q == Times(y, Times(n, Recip(d)))
  {
    RecipIsQuotient(d);
    assert q == (y * n) / d;
  }

  /** Bringing the term y (n / d) to the common denominator q d. */
  lemma CommonDenominator(q: real, d: real, y: real, n: real)
    requires d != 0.0
    ensures Times(Times(q, d), Times(y, Times(n, Recip(d)))) == Times(Times(y, n), q)
  {
    RecipIsQuotient(d);
    assert (q * d) * (y * (n * (1.0 / d))) == (y * n) * q * (d * (1.0 / d));
  }

  lemma RecipOne(d: real)
    requires d == 1.0
    ensures Recip(d) == 1.0
  {
    RecipIsQuotient(d);
  }

  /** An integer product read as a real product. */
  lemma CastTimes(a: int, b: int)
    ensures (a * b) as real == Times(a as real, b as real)
  {
  }
}

=== FILE: shamir.dfy ===
/** `solveShamirSecretSharing` (index.js) after the file has been read and
    parsed: check `keys`, prepare the points, interpolate. Every `return
    null` and every exception the `catch` turns into `null` is a `Failure`
    naming the reason. */
module Shamir {
  import opened Wrappers
  import opened Errors
  import opened Points
  import opened Polynomial
  import opened Lagrange
  import opened Exactness
  import opened ShareSet
  import Radix

  /** `data.keys`: the first `keys` property, if there is one. */
  function KeysOf(data: seq<Entry>): (r: Option<Entry>)
    ensures r.Some? ==> r.value.KeysEntry? && r.value in data
    ensures r.None? <==> forall i :: 0 <= i < |data| ==> !data[i].KeysEntry?
  {
    if |data| == 0 then None
    else if data[0].KeysEntry? then Some(data[0])
    else
      var rest := KeysOf(data[1..]);
      assert forall i :: 1 <= i < |data| ==> data[i] == data[1..][i - 1];
      rest
  }

  /** The negation of `!data.keys || !data.keys.n || !data.keys.k`. */
  predicate HasKeys(data: seq<Entry>) {
    var keys := KeysOf(data);
    keys.Some? && keys.value.n != 0 && keys.value.k != 0
  }

  /** `data.keys.k`, the number of points interpolation uses. */
  function Threshold(data: seq<Entry>): int
    requires HasKeys(data)
  {
    KeysOf(data).value.k
  }

  /** The driver as written: the secret from `lagrangeInterpolation`, one
      truncating division per term. */
  function Solve(data: seq<Entry>): Result<int, Failure> {
    if !HasKeys(data) then Failure(MissingKeys)
    else
      var k := Threshold(data);
      match Prepare(data, k)
      case Failure(err) => Failure(err)
      case Success(points) =>
        match LagrangeInterpolation(points, k)
        case None => Failure(DivisionByZero)
        case Some(secret) => Success(secret)
  }

  /** The driver with the corrected interpolation, which divides once. */
  function SolveExact(data: seq<Entry>): Result<int, Failure> {
    if !HasKeys(data) then Failure(MissingKeys)
    else
      var k := Threshold(data);
      match Prepare(data, k)
      case Failure(err) => Failure(err)
      case Success(points) =>
        match ExactLagrange(points, k)
        case None => Failure(DivisionByZero)
        case Some(secret) => Success(secret)
  }

  /** `MissingKeys` is reported exactly when `keys`, `keys.n` or `keys.k` is
      missing or falsy. */
  lemma MissingKeysIff(data: seq<Entry>)
    ensures Solve(data) == Failure(MissingKeys) <==> !HasKeys(data)
  {
    if HasKeys(data) && Collect(data).Failure? {
      CollectFailure(data);
    }
  }

  /** With the keys present and the shares decoded, the driver gives up
      before interpolating exactly when there are fewer points than k. */
  lemma SolveNotEnough(data: seq<Entry>)
    requires HasKeys(data) && Collect(data).Success?
    ensures Solve(data) == Failure(NotEnoughPoints(Threshold(data), |Collect(data).value|))
      <==> |Collect(data).value| < Threshold(data)
  {
  }

  /** With enough points, the driver fails exactly when two of the first k
      sorted points share an x: the BigInt division by zero, caught. */
  lemma SolveDuplicate(data: seq<Entry>, points: seq<Point>)
    requires HasKeys(data) && Prepare(data, Threshold(data)) == Success(points)
    ensures Solve(data) == Failure(DivisionByZero) <==> !DistinctX(Slice(points, Threshold(data)))
    ensures Solve(data).Success? <==> DistinctX(Slice(points, Threshold(data)))
  {
    FailsIffDuplicate(Slice(points, Threshold(data)));
  }

  /** When the first k sorted points have distinct x's, lie on a polynomial
      of degree below their number and every term's division is exact, the
      driver returns the polynomial's constant term. */
  lemma SolveSecret(data: seq<Entry>, points: seq<Point>, c: seq<int>)
    requires HasKeys(data) && Prepare(data, Threshold(data)) == Success(points)
    requires var s := Slice(points, Threshold(data));
      DistinctX(s) && |c| <= |s| && OnPolynomial(s, c) && ExactTerms(s)
    ensures Solve(data) == Success(ConstantTerm(c))
  {
    ExactRecoversSecret(Slice(points, Threshold(data)), c);
  }

  /** The corrected driver returns the constant term without any exactness
      condition. */
  lemma SolveExactSecret(data: seq<Entry>, points: seq<Point>, c: seq<int>)
    requires HasKeys(data) && Prepare(data, Threshold(data)) == Success(points)
    requires var s := Slice(points, Threshold(data));
      DistinctX(s) && |c| <= |s| && OnPolynomial(s, c)
    ensures SolveExact(data) == Success(ConstantTerm(c))
  {
    ExactSecretCorrect(Slice(points, Threshold(data)), c);
  }

  /** Threshold 1: the secret is the y of the first point of least x. */
  lemma SolveThresholdOne(data: seq<Entry>, points: seq<Point>)
    requires HasKeys(data) && Threshold(data) == 1 && Prepare(data, 1) == Success(points)
    ensures |points| >= 1 && Solve(data) == Success(points[0].y)
    ensures forall i :: 0 <= i < |points| ==> points[0].x <= points[i].x
  {
    PreparedPoints(data, 1, points);
    assert |points| == |multiset(points)| == |multiset(Collect(data).value)|;
    ThresholdOne(points);
  }

  /** A root entry does not affect which `keys` entry is found. */
  lemma {:induction false} KeysOfSplice(a: seq<Entry>, e: Entry, b: seq<Entry>)
    requires e.Root?
    ensures KeysOf(a + [e] + b) == if KeysOf(a).Some? then KeysOf(a) else KeysOf(b)
  {
    var d := a + [e] + b;
    if |a| == 0 {
      assert d[0] == e && d[1..] == b;
    } else if !a[0].KeysEntry? {
      assert d[0] == a[0] && d[1..] == a[1..] + [e] + b;
      KeysOfSplice(a[1..], e, b);
    } else {
      assert d[0] == a[0];
    }
  }

  /** Replacing one share by another that is kept alike and decodes to the
      same point leaves the driver's outcome unchanged, with either
      interpolation. */
  lemma SolveSameDecoding(a: seq<Entry>, b: seq<Entry>, s1: Share, s2: Share)
    requires Usable(s1) == Usable(s2) && DecodeShare(s1) == DecodeShare(s2)
    ensures Solve(a + [Root(s1)] + b) == Solve(a + [Root(s2)] + b)
    ensures SolveExact(a + [Root(s1)] + b) == SolveExact(a + [Root(s2)] + b)
  {
    KeysOfSplice(a, Root(s1), b);
    KeysOfSplice(a, Root(s2), b);
    CollectSameDecoding(a, b, s1, s2);
    SolveSameInputs(a + [Root(s1)] + b, a + [Root(s2)] + b);
  }

  /** The driver reads the input only through the `keys` entry it finds and
      the points it collects. */
  lemma SolveSameInputs(d1: seq<Entry>, d2: seq<Entry>)
    requires KeysOf(d1) == KeysOf(d2) && Collect(d1) == Collect(d2)
    ensures Solve(d1) == Solve(d2) && SolveExact(d1) == SolveExact(d2)
  {
    if HasKeys(d1) {
      PrepareSameCollect(d1, d2, Threshold(d1));
    }
  }

  lemma PrepareSameCollect(d1: seq<Entry>, d2: seq<Entry>, k: int)
    requires Collect(d1) == Collect(d2)
    ensures Prepare(d1, k) == Prepare(d2, k)
  {
  }

  /** Base invariance for the whole driver: a share whose value writes n in
      one radix can be replaced by one writing n in another radix. */
  lemma SolveBaseInvariance(a: seq<Entry>, b: seq<Entry>, x: int, n: nat,
                            text1: string, radix1: int, text2: string, radix2: int)
    requires Radix.Decode(text1, 0) == Success(radix1) && 2 <= radix1 <= 36
    requires Radix.Decode(text2, 0) == Success(radix2) && 2 <= radix2 <= 36
    requires n <= Radix.MaxSafeInteger
    ensures var s1, s2 := Share(x, text1, Radix.Encode(n, radix1)), Share(x, text2, Radix.Encode(n, radix2));
      Usable(s1) && Usable(s2) &&
      Solve(a + [Root(s1)] + b) == Solve(a + [Root(s2)] + b)
  {
    var s1, s2 := Share(x, text1, Radix.Encode(n, radix1)), Share(x, text2, Radix.Encode(n, radix2));
    Radix.DecodeEncode(n, radix1);
    Radix.DecodeEncode(n, radix2);
    assert DecodeShare(s1) == Success(Point(x, n));
    assert DecodeShare(s2) == Success(Point(x, n));
    SolveSameDecoding(a, b, s1, s2);
  }

  /** An example input: the usage message's first two shares (index.js:125-131),
      "4" in base 10 and "111" in base 2, an added third share "12" in base
      10, and `keys` with n = 3 and k = 2. */
  function ExampleData(): seq<Entry> {
    [KeysEntry(3, 2), Root(Share(1, "10", "4")), Root(Share(2, "2", "111")), Root(Share(3, "10", "12"))]
  }

  /** The example's shares are all kept and decode to (1, 4), (2, 7) and
      (3, 12). */
  lemma ExampleShares()
    ensures Usable(Share(1, "10", "4")) && DecodeShare(Share(1, "10", "4")) == Success(Point(1, 4))
    ensures Usable(Share(2, "2", "111")) && DecodeShare(Share(2, "2", "111")) == Success(Point(2, 7))
    ensures Usable(Share(3, "10", "12")) && DecodeShare(Share(3, "10", "12")) == Success(Point(3, 12))
  {
    DecodeSmall();
  }

  /** A `keys` entry followed by three shares that decode. */
  lemma CollectKeysAndThree(e0: Entry, e1: Entry, e2: Entry, e3: Entry, p1: Point, p2: Point, p3: Point)
    requires e0.KeysEntry?
    requires Kept(e1) && DecodeShare(e1.share) == Success(p1)
    requires Kept(e2) && DecodeShare(e2.share) == Success(p2)
    requires Kept(e3) && DecodeShare(e3.share) == Success(p3)
    ensures Collect([e0, e1, e2, e3]) == Success([p1, p2, p3])
  {
    CollectSkip([], e0, []);
    CollectKeep([] + [e0], e1, [], p1);
    CollectKeep([] + [e0] + [e1], e2, [] + [p1], p2);
    CollectKeep([] + [e0] + [e1] + [e2], e3, [] + [p1] + [p2], p3);
    Snoc4(e0, e1, e2, e3);
    Snoc3(p1, p2, p3);
  }

  lemma Snoc4<T>(a: T, b: T, c: T, d: T)
    ensures [] + [a] + [b] + [c] + [d] == [a, b, c, d]
  {
  }

  lemma Snoc3<T>(a: T, b: T, c: T)
    ensures [] + [a] + [b] + [c] == [a, b, c]
  {
  }

  lemma ExampleCollect()
    ensures Collect(ExampleData()) == Success([Point(1, 4), Point(2, 7), Point(3, 12)])
  {
    ExampleShares();
    CollectKeysAndThree(KeysEntry(3, 2), Root(Share(1, "10", "4")), Root(Share(2, "2", "111")), Root(Share(3, "10", "12")),
      Point(1, 4), Point(2, 7), Point(3, 12));
  }

  lemma ExamplePrepare()
    ensures Prepare(ExampleData(), 2) == Success([Point(1, 4), Point(2, 7), Point(3, 12)])
  {
    var points := [Point(1, 4), Point(2, 7), Point(3, 12)];
    ExampleCollect();
    assert SortedByX(points);
    PrepareSorted(ExampleData(), 2, points);
  }

  /** Points collected in order of x come out of preparation unchanged. */
  lemma PrepareSorted(data: seq<Entry>, k: int, points: seq<Point>)
    requires Collect(data) == Success(points) && |points| >= k && SortedByX(points)
    ensures Prepare(data, k) == Success(points)
  {
    SortByXUnique(points, points);
  }

  /** The success path of the driver, step by step. */
  lemma SolveSuccess(data: seq<Entry>, points: seq<Point>, secret: int)
    requires HasKeys(data) && Prepare(data, Threshold(data)) == Success(points)
    requires LagrangeInterpolation(points, Threshold(data)) == Some(secret)
    ensures Solve(data) == Success(secret)
  {
  }

  /** The example input: the points are (1, 4), (2, 7), (3, 12), already in
      order; the first two are used, and the secret is 8 - 7 = 1. */
  lemma SolveExample()
    ensures Solve(ExampleData()) == Success(1)
  {
    var points := [Point(1, 4), Point(2, 7), Point(3, 12)];
    ExampleKeys();
    ExamplePrepare();
    ExampleInterpolation();
    SolveSuccess(ExampleData(), points, 1);
  }

  lemma ExampleKeys()
    ensures HasKeys(ExampleData()) && Threshold(ExampleData()) == 2
  {
    assert KeysOf(ExampleData()) == Some(KeysEntry(3, 2));
  }

  lemma ExampleInterpolation()
    ensures LagrangeInterpolation([Point(1, 4), Point(2, 7), Point(3, 12)], 2) == Some(1)
  {
    TwoPointExample();
    FirstKOnly([Point(1, 4), Point(2, 7), Point(3, 12)], [Point(1, 4), Point(2, 7)], 2);
  }

  /** The readings the example needs: "10" and "2" without a radix
      argument, "4" and "12" in decimal, "111" in binary. */
  lemma DecodeSmall()
    ensures Radix.Decode("10", 0) == Success(10)
    ensures Radix.Decode("2", 0) == Success(2)
    ensures Radix.Decode("4", 10) == Success(4)
    ensures Radix.Decode("111", 2) == Success(7)
    ensures Radix.Decode("12", 10) == Success(12)
  {
    Radix.DecodeExamples();
    DecodeTen();
    DecodeTwo();
    DecodeTwelve();
  }

  lemma DecodeTen()
    ensures Radix.Decode("10", 0) == Success(10)
  {
    assert Radix.AllDigits("10", 10) by {
      assert "10"[0] == '1' && "10"[1] == '0';
    }
    assert Radix.Positional("10", 10) == 10 by {
      assert "10"[1..] == "0" && "0"[1..] == "";
    }
    Radix.DecodeDecimal("10");
  }

  lemma DecodeTwo()
    ensures Radix.Decode("2", 0) == Success(2)
  {
    assert Radix.AllDigits("2", 10) by {
      assert "2"[0] == '2';
    }
    assert Radix.Positional("2", 10) == 2 by {
      assert "2"[1..] == "";
    }
    Radix.DecodeDecimal("2");
  }

  lemma DecodeTwelve()
    ensures Radix.Decode("12", 10) == Success(12)
  {
    assert Radix.AllDigits("12", 10) by {
      assert "12"[0] == '1' && "12"[1] == '2';
    }
    assert Radix.Positional("12", 10) == 12 by {
      assert "12"[1..] == "2" && "2"[1..] == "";
    }
    Radix.DecodeDigits("12", 10);
  }
}

=== FILE: shareset.dfy ===
/** The point set `solveShamirSecretSharing` (index.js) hands to
    interpolation: every property of the input object except `keys`, with
    the ones whose base or value is falsy dropped, each decoded, then sorted
    by x with the stable `Array.prototype.sort`. */
module ShareSet {
  import opened Wrappers
  import opened Errors
  import opened Radix
  import opened Points
  import opened Traverse

  /** A root of the polynomial as the input gives it: x is its key as
      `parseInt` reads it, `base` and `value` are its two strings. */
  datatype Share = Share(x: int, base: string, value: string)

  /** One property of the input object, in enumeration order. `KeysEntry`
      is the `keys` property with its `n` and `k` (0 standing for a missing
      or falsy value); every other property is a `Root`. */
  datatype Entry =
    | KeysEntry(n: int, k: int)
    | Root(share: Share)

  /** `parseInt(data[key].base)`: no radix argument, which ToInt32 turns
      into 0, so the base is read in decimal (or hexadecimal after `0x`). */
  function BaseOf(s: Share): Result<int, Failure> {
    Decode(s.base, 0)
  }

  /** `!base || !value` is false: the value is not the empty string and the
      base is neither NaN nor zero. A base above 2^53 - 1 is truthy. */
  predicate Usable(s: Share) {
    s.value != "" &&
    match BaseOf(s)
    case Success(b) => b != 0
    case Failure(err) => err == Imprecise
  }

  /** The entry gets past `if (key === 'keys') continue` and
      `if (!base || !value) continue`. */
  predicate Kept(e: Entry) {
    e.Root? && Usable(e.share)
  }

  /** The point of a usable share: `{ x, y: convertFromBase(value, base) }`.
      A NaN from `parseInt` becomes `BigInt(NaN)`'s RangeError. */
  function DecodeShare(s: Share): (r: Result<Point, Failure>)
    ensures r.Success? ==> r.value.x == s.x
    ensures r.Failure? ==> r.error == NotANumber || r.error == Imprecise
  {
    match BaseOf(s)
    case Failure(err) => Failure(err)
    case Success(b) =>
      match Decode(s.value, b)
      case Failure(err) => Failure(err)
      case Success(y) => Success(Point(s.x, y))
  }

  /** The shares of the kept entries, in order. */
  function KeptShares(data: seq<Entry>): (r: seq<Share>)
    ensures |r| <= |data|
  {
    if |data| == 0 then []
    else
      var last := data[|data| - 1];
      KeptShares(data[..|data| - 1]) + (if Kept(last) then [last.share] else [])
  }

  /** The points the loop at index.js:69-85 collects, or the failure that
      ends it: each kept share decoded in order, the first failure
      propagating. */
  function Collect(data: seq<Entry>): Result<seq<Point>, Failure> {
    MapResult(KeptShares(data), DecodeShare)
  }

  /** Filtering distributes over concatenation: together with
      `KeptSharesSingle` this determines `KeptShares` completely. */
  lemma {:induction false} KeptSharesAppend(a: seq<Entry>, b: seq<Entry>)
    ensures KeptShares(a + b) == KeptShares(a) + KeptShares(b)
    decreases |b|
  {
    if |b| == 0 {
      assert a + b == a;
    } else {
      var init, last := b[..|b| - 1], b[|b| - 1];
      var ab := a + b;
      assert ab[..|ab| - 1] == a + init && ab[|ab| - 1] == last;
      KeptSharesAppend(a, init);
    }
  }

  lemma KeptSharesSingle(e: Entry)
    ensures KeptShares([e]) == if Kept(e) then [e.share] else []
  {
    assert [e][..0] == [];
  }

  /** A share is among the kept ones exactly when it is a root of the input
      and usable. */
  lemma {:induction false} KeptSharesMember(data: seq<Entry>, s: Share)
    ensures s in KeptShares(data) <==> Root(s) in data && Usable(s)
  {
    if |data| > 0 {
      var init := data[..|data| - 1];
      KeptSharesMember(init, s);
      assert data == init + [data[|data| - 1]];
    }
  }

  /** `Collect` one entry further: the loop body of index.js:69-85. */
  lemma CollectSnoc(data: seq<Entry>, e: Entry)
    ensures Collect(data + [e]) ==
      match Collect(data)
      case Failure(err) => Failure(err)
      case Success(ps) =>
        if !Kept(e) then Success(ps)
        else
          match DecodeShare(e.share)
          case Failure(err) => Failure(err)
          case Success(p) => Success(ps + [p])
  {
    var d := data + [e];
    assert d[..|d| - 1] == data;
    if Kept(e) {
      MapResultSnoc(KeptShares(data), e.share, DecodeShare);
    } else {
      assert KeptShares(d) == KeptShares(data);
    }
  }

  lemma CollectSkip(data: seq<Entry>, e: Entry, ps: seq<Point>)
    requires Collect(data) == Success(ps) && !Kept(e)
    ensures Collect(data + [e]) == Success(ps)
  {
    CollectSnoc(data, e);
  }

  lemma CollectKeep(data: seq<Entry>, e: Entry, ps: seq<Point>, p: Point)
    requires Collect(data) == Success(ps) && Kept(e) && DecodeShare(e.share) == Success(p)
    ensures Collect(data + [e]) == Success(ps + [p])
  {
    CollectSnoc(data, e);
  }

  lemma CollectStop(data: seq<Entry>, e: Entry, ps: seq<Point>)
    requires Collect(data) == Success(ps) && Kept(e) && DecodeShare(e.share).Failure?
    ensures Collect(data + [e]) == Failure(DecodeShare(e.share).error)
  {
    CollectSnoc(data, e);
  }

  /** A successful collection holds one point per kept share, in order. */
  lemma CollectSuccess(data: seq<Entry>)
    requires Collect(data).Success?
    ensures |Collect(data).value| == |KeptShares(data)|
    ensures forall i :: 0 <= i < |KeptShares(data)| ==>
      DecodeShare(KeptShares(data)[i]) == Success(Collect(data).value[i])
  {
    MapResultSuccess(KeptShares(data), DecodeShare);
  }

  /** A failed collection reports the failure of the first kept share that
      does not decode, which is NaN or an imprecise magnitude. */
  lemma CollectFailure(data: seq<Entry>)
    requires Collect(data).Failure?
    ensures exists i :: FirstFailure(KeptShares(data), DecodeShare, i, Collect(data).error)
    ensures Collect(data).error == NotANumber || Collect(data).error == Imprecise
  {
    MapResultFailure(KeptShares(data), DecodeShare);
  }

  /** The loop at index.js:69-85, statement for statement. */
  method CollectPoints(data: seq<Entry>) returns (r: Result<seq<Point>, Failure>)
    ensures r == Collect(data)
  {
    var points: seq<Point> := [];
    var i := 0;
    while i < |data|
      invariant 0 <= i <= |data|
      invariant Collect(data[..i]) == Success(points)
    {
      var e := data[i];
      assert data[..i + 1] == data[..i] + [e];
      if e.KeysEntry? || !Usable(e.share) {
        CollectSkip(data[..i], e, points);
        i := i + 1;
        continue;
      }
      var y := DecodeShare(e.share);
      if y.Failure? {
        CollectStop(data[..i], e, points);
        CollectFailureSticks(data, i + 1);
        return Failure(y.error);
      }
      CollectKeep(data[..i], e, points, y.value);
      points := points + [y.value];
      i := i + 1;
    }
    assert data[..i] == data;
    r := Success(points);
  }

  /** Once decoding has failed, later entries do not change the outcome. */
  lemma {:induction false} CollectFailureSticks(data: seq<Entry>, i: nat)
    requires i <= |data| && Collect(data[..i]).Failure?
    ensures Collect(data) == Collect(data[..i])
    decreases |data| - i
  {
    if i < |data| {
      assert data[..i + 1] == data[..i] + [data[i]];
      CollectSnoc(data[..i], data[i]);
      CollectFailureSticks(data, i + 1);
    } else {
      assert data[..i] == data;
    }
  }

  /** Filtering around one entry. */
  lemma KeptSharesSplice(a: seq<Entry>, e: Entry, b: seq<Entry>)
    ensures KeptShares(a + [e] + b) == KeptShares(a) + KeptShares([e]) + KeptShares(b)
  {
    KeptSharesAppend(a + [e], b);
    KeptSharesAppend(a, [e]);
  }

  /** Replacing one root of the input by another that is kept alike and
      decodes alike changes nothing the loop collects. */
  lemma CollectSameDecoding(a: seq<Entry>, b: seq<Entry>, s1: Share, s2: Share)
    requires Usable(s1) == Usable(s2) && DecodeShare(s1) == DecodeShare(s2)
    ensures Collect(a + [Root(s1)] + b) == Collect(a + [Root(s2)] + b)
  {
    KeptSharesSplice(a, Root(s1), b);
    KeptSharesSplice(a, Root(s2), b);
    KeptSharesSingle(Root(s1));
    KeptSharesSingle(Root(s2));
    if Usable(s1) {
      MapResultReplace(KeptShares(a), s1, s2, KeptShares(b), DecodeShare);
    } else {
      assert KeptShares(a + [Root(s1)] + b) == KeptShares(a + [Root(s2)] + b);
    }
  }

  /** The points of `s` whose x is `v`, in order. */
  function WithX(s: seq<Point>, v: int): seq<Point> {
    if |s| == 0 then []
    else
      var last := s[|s| - 1];
      WithX(s[..|s| - 1], v) + (if last.x == v then [last] else [])
  }

  lemma {:induction false} WithXAppend(a: seq<Point>, b: seq<Point>, v: int)
    ensures WithX(a + b, v) == WithX(a, v) + WithX(b, v)
    decreases |b|
  {
    if |b| == 0 {
      assert a + b == a;
    } else {
      var init := b[..|b| - 1];
      assert (a + b)[..|a + b| - 1] == a + init;
      WithXAppend(a, init, v);
    }
  }

  lemma {:induction false} WithXMember(s: seq<Point>, v: int, q: Point)
    ensures q in WithX(s, v) <==> q in s && q.x == v
  {
    if |s| > 0 {
      var init := s[..|s| - 1];
      WithXMember(init, v, q);
      assert s == init + [s[|s| - 1]];
    }
  }

  predicate SortedByX(s: seq<Point>) {
    forall i, j :: 0 <= i < j < |s| ==> s[i].x <= s[j].x
  }

  /** `p` placed into `s` after every point whose x is at most p.x. */
  function Insert(s: seq<Point>, p: Point): (r: seq<Point>)
    ensures |r| == |s| + 1
  {
    if |s| == 0 then [p]
    else
      var last := s[|s| - 1];
      if last.x <= p.x then s + [p]
      else Insert(s[..|s| - 1], p) + [last]
  }

  lemma {:induction false} InsertMultiset(s: seq<Point>, p: Point)
    ensures multiset(Insert(s, p)) == multiset(s) + multiset{p}
  {
    if |s| > 0 && s[|s| - 1].x > p.x {
      var init := s[..|s| - 1];
      InsertMultiset(init, p);
      assert s == init + [s[|s| - 1]];
    }
  }

  lemma {:induction false} InsertSorted(s: seq<Point>, p: Point)
    requires SortedByX(s)
    ensures SortedByX(Insert(s, p))
  {
    if |s| > 0 {
      var init, last := s[..|s| - 1], s[|s| - 1];
      if last.x > p.x {
        InsertSorted(init, p);
        InsertMultiset(init, p);
        var r := Insert(init, p);
        forall i | 0 <= i < |r|
          ensures r[i].x <= last.x
        {
          assert r[i] in multiset(r);
          assert r[i] in multiset(init) || r[i] == p;
        }
      }
    }
  }

  /** Inserting adds `p` to the points with its x, after the ones already
      there; the points with any other x are untouched. */
  lemma {:induction false} InsertWithX(s: seq<Point>, p: Point, v: int)
    requires SortedByX(s)
    ensures WithX(Insert(s, p), v) == WithX(s, v) + (if p.x == v then [p] else [])
  {
    if |s| == 0 {
      assert Insert(s, p) == [] + [p];
    } else {
      var init, last := s[..|s| - 1], s[|s| - 1];
      if last.x <= p.x {
        assert (s + [p])[..|s|] == s;
      } else {
        InsertWithX(init, p, v);
        var r := Insert(init, p) + [last];
        assert r[..|r| - 1] == Insert(init, p);
      }
    }
  }

  /** `points.sort((a, b) => a.x - b.x)`: a stable sort ascending by x,
      written as an insertion sort. */
  function SortByX(s: seq<Point>): (r: seq<Point>)
    ensures SortedByX(r)
    ensures multiset(r) == multiset(s)
  {
    if |s| == 0 then []
    else
      var init, last := s[..|s| - 1], s[|s| - 1];
      var sorted := SortByX(init);
      InsertSorted(sorted, last);
      InsertMultiset(sorted, last);
      assert s == init + [last];
      Insert(sorted, last)
  }

  /** Stability: the points with any one x come out in their input order. */
  lemma {:induction false} SortByXStable(s: seq<Point>, v: int)
    ensures WithX(SortByX(s), v) == WithX(s, v)
  {
    if |s| > 0 {
      var init, last := s[..|s| - 1], s[|s| - 1];
      SortByXStable(init, v);
      InsertWithX(SortByX(init), last, v);
    }
  }

  lemma SortedLastIsMax(u: seq<Point>, q: Point)
    requires SortedByX(u) && q in u
    ensures q.x <= u[|u| - 1].x
  {
    var i :| 0 <= i < |u| && u[i] == q;
  }

  /** Two sorted sequences keeping the same points with the x of either
      last point end in points with the same x. */
  lemma SameLastX(t: seq<Point>, u: seq<Point>)
    requires SortedByX(t) && SortedByX(u) && |t| > 0 && |u| > 0
    requires WithX(t, t[|t| - 1].x) == WithX(u, t[|t| - 1].x)
    requires WithX(t, u[|u| - 1].x) == WithX(u, u[|u| - 1].x)
    ensures t[|t| - 1].x == u[|u| - 1].x
  {
    var a, b := t[|t| - 1], u[|u| - 1];
    WithXMember(t, a.x, a);
    WithXMember(u, a.x, a);
    WithXMember(t, b.x, b);
    WithXMember(u, b.x, b);
    SortedLastIsMax(u, a);
    SortedLastIsMax(t, b);
  }

  /** A sequence with no points of any x is empty. */
  lemma NoGroupsEmpty(t: seq<Point>, u: seq<Point>)
    requires |t| == 0 && |u| > 0
    ensures WithX(t, u[|u| - 1].x) != WithX(u, u[|u| - 1].x)
  {
    var q := u[|u| - 1];
    WithXMember(u, q.x, q);
  }

  /** Sortedness and stability determine the output: two sorted sequences
      that keep the points of every x in the same order are equal. */
  lemma {:induction false} SortedStableUnique(t: seq<Point>, u: seq<Point>)
    requires SortedByX(t) && SortedByX(u)
    requires forall v :: WithX(t, v) == WithX(u, v)
    ensures t == u
    decreases |t| + |u|
  {
    if |t| == 0 && |u| > 0 {
      NoGroupsEmpty(t, u);
    } else if |u| == 0 && |t| > 0 {
      NoGroupsEmpty(u, t);
    } else if |t| > 0 && |u| > 0 {
      var t0, a := t[..|t| - 1], t[|t| - 1];
      var u0, b := u[..|u| - 1], u[|u| - 1];
      SameLastX(t, u);
      var m := a.x;
      var g := WithX(t, m);
      assert g == WithX(t0, m) + [a];
      assert g == WithX(u0, m) + [b];
      assert a == b && WithX(t0, m) == WithX(u0, m) by {
        assert g[|g| - 1] == a && g[|g| - 1] == b;
        assert g[..|g| - 1] == WithX(t0, m) && g[..|g| - 1] == WithX(u0, m);
      }
      forall v
        ensures WithX(t0, v) == WithX(u0, v)
      {
        if v != m {
          assert WithX(t, v) == WithX(t0, v);
          assert WithX(u, v) == WithX(u0, v);
        }
      }
      SortedStableUnique(t0, u0);
      assert t == t0 + [a] && u == u0 + [b];
    }
  }

  /** The decoded points, or the reason there are none to interpolate:
      a decoding failure, or fewer points than the threshold `k`. */
  function Prepare(data: seq<Entry>, k: int): Result<seq<Point>, Failure> {
    match Collect(data)
    case Failure(err) => Failure(err)
    case Success(points) =>
      if |points| < k then Failure(NotEnoughPoints(k, |points|))
      else Success(SortByX(points))
  }

  /** `SortByX` is the stable sort: the only sorted arrangement of `s` that
      keeps the points of every x in their input order. */
  lemma SortByXUnique(s: seq<Point>, t: seq<Point>)
    requires SortedByX(t)
    requires forall v :: WithX(t, v) == WithX(s, v)
    ensures t == SortByX(s)
  {
    forall v
      ensures WithX(t, v) == WithX(SortByX(s), v)
    {
      SortByXStable(s, v);
    }
    SortedStableUnique(t, SortByX(s));
  }

  /** The prepared points are the collected ones, sorted by x, the points
      with equal x in input order. */
  lemma PreparedPoints(data: seq<Entry>, k: int, prepared: seq<Point>)
    requires Prepare(data, k) == Success(prepared)
    ensures Collect(data).Success? && |Collect(data).value| >= k
    ensures SortedByX(prepared) && multiset(prepared) == multiset(Collect(data).value)
    ensures forall v :: WithX(prepared, v) == WithX(Collect(data).value, v)
  {
    forall v
      ensures WithX(prepared, v) == WithX(Collect(data).value, v)
    {
      SortByXStable(Collect(data).value, v);
    }
  }

  /** Too few points fail with the counts, whatever else is wrong with them;
      enough points never fail here. */
  lemma NotEnough(data: seq<Entry>, k: int)
    requires Collect(data).Success?
    ensures Prepare(data, k).Failure? <==> |Collect(data).value| < k
    ensures Prepare(data, k).Failure? ==> Prepare(data, k).error == NotEnoughPoints(k, |Collect(data).value|)
  {
  }
}

=== FILE: symmetry.dfy ===
/** Lagrange's formula at zero does not depend on the order of the points:
    each term reads only its own point and the multiset of the others, and
    the terms are summed by a commutative, associative BigInt addition. */
module Symmetry {
  import opened Wrappers
  import opened Arith
  import opened Points
  import opened Lagrange

  /** `ctx` without the first occurrence of `p`. */
  function RemoveFirst(ctx: seq<Point>, p: Point): seq<Point> {
    if |ctx| == 0 then []
    else if ctx[0] == p then ctx[1..]
    else [ctx[0]] + RemoveFirst(ctx[1..], p)
  }

  lemma {:induction false} RemoveFirstMultiset(ctx: seq<Point>, p: Point)
    ensures multiset(RemoveFirst(ctx, p)) == multiset(ctx) - multiset{p}
  {
    if |ctx| > 0 {
      assert ctx == [ctx[0]] + ctx[1..];
      RemoveFirstMultiset(ctx[1..], p);
    }
  }

  /** The term of point `p` when the whole point set is `ctx`. */
  function TermIn(p: Point, ctx: seq<Point>): Option<int> {
    var others := RemoveFirst(ctx, p);
    TruncDiv(p.y * Span(0, others), Span(p.x, others))
  }

  /** The sum of the terms of the points `ps`, each taken within `ctx`. */
  function SumIn(ps: seq<Point>, ctx: seq<Point>): Option<int> {
    if |ps| == 0 then Some(0)
    else AddOpt(SumIn(ps[..|ps| - 1], ctx), TermIn(ps[|ps| - 1], ctx))
  }

  /** A term depends on the other points only through their multiset. */
  lemma TermIsTermIn(s: seq<Point>, i: nat)
    requires i < |s|
    ensures Term(s, i) == TermIn(s[i], s)
  {
    OthersMultiset(s, i);
    RemoveFirstMultiset(s, s[i]);
    SpanPermutation(0, Others(s, i), RemoveFirst(s, s[i]));
    SpanPermutation(s[i].x, Others(s, i), RemoveFirst(s, s[i]));
  }

  lemma {:induction false} SumTermsIsSumIn(s: seq<Point>, n: nat)
    requires n <= |s|
    ensures SumTerms(s, n) == SumIn(s[..n], s)
  {
    if n > 0 {
      SumTermsIsSumIn(s, n - 1);
      assert s[..n][..n - 1] == s[..n - 1];
      TermIsTermIn(s, n - 1);
    }
  }

  lemma AddOptSwap(a: Option<int>, b: Option<int>, c: Option<int>)
    ensures AddOpt(AddOpt(a, b), c) == AddOpt(AddOpt(a, c), b)
  {
  }

  /** Any one term can be taken out of the sum and added last. */
  lemma {:induction false} SumInRemove(b: seq<Point>, j: nat, ctx: seq<Point>)
    requires j < |b|
    ensures SumIn(b, ctx) == AddOpt(SumIn(Others(b, j), ctx), TermIn(b[j], ctx))
  {
    var n := |b|;
    var init := b[..n - 1];
    var last := b[n - 1];
    if j < n - 1 {
      assert init[j] == b[j];
      SumInRemove(init, j, ctx);
      assert Others(b, j) == Others(init, j) + [last];
      assert (Others(init, j) + [last])[..n - 2] == Others(init, j);
      AddOptSwap(SumIn(Others(init, j), ctx), TermIn(b[j], ctx), TermIn(last, ctx));
    } else {
      assert Others(b, j) == init;
    }
  }

  /** Reordering the points being summed leaves the sum unchanged. */
  lemma {:induction false} SumInPermutation(a: seq<Point>, b: seq<Point>, ctx: seq<Point>)
    requires multiset(a) == multiset(b)
    ensures SumIn(a, ctx) == SumIn(b, ctx)
    decreases |a|
  {
    if |a| == 0 {
      assert |b| == |multiset(b)| == 0;
    } else {
      var j := MatchLast(a, b);
      SumInPermutation(a[..|a| - 1], Others(b, j), ctx);
      SumInRemove(b, j, ctx);
    }
  }

  /** Reordering the surrounding point set leaves every term unchanged. */
  lemma {:induction false} SumInContext(ps: seq<Point>, c1: seq<Point>, c2: seq<Point>)
    requires multiset(c1) == multiset(c2)
    ensures SumIn(ps, c1) == SumIn(ps, c2)
  {
    if |ps| > 0 {
      var p := ps[|ps| - 1];
      SumInContext(ps[..|ps| - 1], c1, c2);
      RemoveFirstMultiset(c1, p);
      RemoveFirstMultiset(c2, p);
      SpanPermutation(0, RemoveFirst(c1, p), RemoveFirst(c2, p));
      SpanPermutation(p.x, RemoveFirst(c1, p), RemoveFirst(c2, p));
    }
  }

  /** Permuting the selected points leaves `lagrangeInterpolation`'s result
      unchanged, failure included. */
  lemma PermutationInvariant(s: seq<Point>, t: seq<Point>)
    requires multiset(s) == multiset(t)
    ensures LagrangeAtZero(s) == LagrangeAtZero(t)
  {
    assert |s| == |multiset(s)| == |multiset(t)| == |t|;
    SumTermsIsSumIn(s, |s|);
    SumTermsIsSumIn(t, |t|);
    assert s[..|s|] == s && t[..|t|] == t;
    SumInPermutation(s, t, s);
    SumInContext(t, s, t);
  }
}

=== FILE: traverse.dfy ===
/** Applying a step that may fail to every element of a sequence, in order,
    stopping at the first failure: the shape of a loop whose body can throw. */
module Traverse {
  import opened Wrappers

  function MapResult<A, B, E>(xs: seq<A>, f: A -> Result<B, E>): Result<seq<B>, E> {
    if |xs| == 0 then Success([])
    else
      match MapResult(xs[..|xs| - 1], f)
      case Failure(err) => Failure(err)
      case Success(ys) =>
        match f(xs[|xs| - 1])
        case Failure(err) => Failure(err)
        case Success(y) => Success(ys + [y])
  }

  /** One more element: a failure so far stays, otherwise the element's
      result is appended or its failure reported. */
  lemma MapResultSnoc<A, B, E>(xs: seq<A>, x: A, f: A -> Result<B, E>)
    ensures MapResult(xs + [x], f) ==
      match MapResult(xs, f)
      case Failure(err) => Failure(err)
      case Success(ys) =>
        match f(x)
        case Failure(err) => Failure(err)
        case Success(y) => Success(ys + [y])
  {
    assert (xs + [x])[..|xs|] == xs;
  }

  /** A successful traversal holds every element's result, one for one. */
  lemma {:induction false} MapResultSuccess<A, B, E>(xs: seq<A>, f: A -> Result<B, E>)
    requires MapResult(xs, f).Success?
    ensures |MapResult(xs, f).value| == |xs|
    ensures forall i :: 0 <= i < |xs| ==> f(xs[i]) == Success(MapResult(xs, f).value[i])
  {
    if |xs| > 0 {
      var n := |xs|;
      var init := xs[..n - 1];
      assert xs == init + [xs[n - 1]];
      MapResultSnoc(init, xs[n - 1], f);
      MapResultSuccess(init, f);
      var ys := MapResult(init, f).value;
      var r := MapResult(xs, f).value;
      assert r == ys + [f(xs[n - 1]).value];
      forall i | 0 <= i < n
        ensures f(xs[i]) == Success(r[i])
      {
        if i < n - 1 {
          assert xs[i] == init[i] && r[i] == ys[i];
        }
      }
    }
  }

  /** Element i is the first whose step fails, and it fails with `err`. */
  predicate FirstFailure<A, B, E(==)>(xs: seq<A>, f: A -> Result<B, E>, i: nat, err: E) {
    i < |xs| && f(xs[i]).Failure? && f(xs[i]).error == err &&
    forall j :: 0 <= j < i ==> f(xs[j]).Success?
  }

  /** A failed traversal reports the failure of the first element whose
      step fails. */
  lemma {:induction false} MapResultFailure<A, B, E>(xs: seq<A>, f: A -> Result<B, E>)
    requires MapResult(xs, f).Failure?
    ensures exists i :: FirstFailure(xs, f, i, MapResult(xs, f).error)
  {
    var n := |xs|;
    assert n > 0;
    var init := xs[..n - 1];
    assert xs == init + [xs[n - 1]];
    MapResultSnoc(init, xs[n - 1], f);
    if MapResult(init, f).Failure? {
      MapResultFailure(init, f);
      var i: nat :| FirstFailure(init, f, i, MapResult(init, f).error);
      assert xs[i] == init[i];
      assert FirstFailure(xs, f, i, MapResult(xs, f).error) by {
        forall j | 0 <= j < i
          ensures f(xs[j]).Success?
        {
          assert xs[j] == init[j];
        }
      }
    } else {
      MapResultSuccess(init, f);
      assert FirstFailure(xs, f, n - 1, MapResult(xs, f).error) by {
        forall j | 0 <= j < n - 1
          ensures f(xs[j]).Success?
        {
          assert xs[j] == init[j];
        }
      }
    }
  }

  /** The traversal sees each element only through its step's result:
      sequences whose elements give the same results traverse alike. */
  lemma {:induction false} MapResultPointwise<A, B, E>(xs: seq<A>, ys: seq<A>, f: A -> Result<B, E>)
    requires |xs| == |ys|
    requires forall i :: 0 <= i < |xs| ==> f(xs[i]) == f(ys[i])
    ensures MapResult(xs, f) == MapResult(ys, f)
  {
    if |xs| > 0 {
      var n := |xs|;
      assert forall i :: 0 <= i < n - 1 ==> xs[..n - 1][i] == xs[i] && ys[..n - 1][i] == ys[i];
      MapResultPointwise(xs[..n - 1], ys[..n - 1], f);
    }
  }

  /** Replacing one element by another whose step gives the same result. */
  lemma MapResultReplace<A, B, E>(p: seq<A>, x: A, y: A, q: seq<A>, f: A -> Result<B, E>)
    requires f(x) == f(y)
    ensures MapResult(p + [x] + q, f) == MapResult(p + [y] + q, f)
  {
    var xs, ys := p + [x] + q, p + [y] + q;
    forall i | 0 <= i < |xs|
      ensures f(xs[i]) == f(ys[i])
    {
      if i != |p| {
        assert xs[i] == ys[i];
      }
    }
    MapResultPointwise(xs, ys, f);
  }
}

=== FILE: wrappers.dfy ===
/** `Option` stands for a computation that may throw (the JavaScript code's
    exceptions), `Result` for one that reports why it failed. */
module Wrappers {

  datatype Option<+T> = None | Some(value: T)

  datatype Result<+R, +E> = Success(value: R) | Failure(error: E)
}
